=== FILE: README.md ===
# laundry-data, modelled in Dafny

laundry-data polls a laundry-machine API for the machines of configured rooms and keeps
the location and room records in a SQL database. This project models the sequential logic
around that scraper as pure functions and small loops over abstract inputs. The covered
pieces are:

- the startup reconciliation (`db_precheck`). It compares configured location and room ids
  with stored ones, asks once for each configured location's metadata, and stages and
  inserts the missing records;
- the physical endpoint identifier (PEP). Its fixed byte layout is hashed, and the 16
  little-endian digest bytes are written in base64url without padding (section 5 of
  RFC 4648, padding omitted as section 3.2 permits);
- the two URL builders: `url::machines`/`url::location`, which include the port, and
  `RoomMachinesEndpoint::build_url`, which uses compile-time protocol and host and no port;
- JSON decoding of the API records and the configuration, with serde's defaulting rules;
- the migration-row decoder and its query loop;
- the two scraper generations. This covers their sleep jitter, the one-task-per-endpoint
  fan-out, how a response becomes a message, and the controller's request/reply dispatch.
  Each loop is a function of the sequence of events it observes.

Parameters stand in for what the model does not compute:

- the 128-bit hash (`hash: seq<Byte> -> U128`);
- UUID parsing from JSON text (`parseUuid`);
- the Unix-timestamp conversion (`fromUnix`);
- the metadata reply for a location (`fetch`);
- each insert's outcome (`succeeds`);
- the random offsets;
- whether the HTTP client builds.

The SQL `SELECT` results are inputs, as rows of typed values.

Notes on the code as it stands:

- `error_for_status` turns only 4xx and 5xx statuses into errors. A 1xx or 3xx response
  is therefore passed on as `ApiResponse` (`Scrape.Classify`).
- A staged location is inserted with SQL NULL as its description, so two locations that
  differ only in description produce the same insert.
- The location id stored is the reply UUID's canonical text (lower-case, hyphenated). A
  configured id written any other way is never staged, even when it is missing
  (`PrecheckProperties.StagedLocationIdIsCanonical`).
- The ids are spliced into URLs verbatim, so different endpoints can poll the same URL.
- A row missing only its fourth column is reported as "Failed to get index 0" (see
  "## Findings"). `Migration.Query` decodes rows as the code is written;
  `Migration.MigrationFromRow` is the corrected decoder.
- `label` is a Dafny keyword, so the records' `label` field is named `labelText`. The JSON
  key is still `"label"`.

Files, one module per concern:

- `wrappers.dfy`: `Option`, `Result`.
- `bytes.dfy`: bytes and little-endian encoding.
- `utf8.dfy`: UTF-8.
- `base64url.dfy`: base64url.
- `uuid.dfy`: UUID bytes and text.
- `pep.dfy`: the PEP.
- `json.dfy`: JSON values and readers.
- `api.dfy`: API records.
- `endpoint.dfy`: `RoomMachinesEndpoint`.
- `config.dfy`: `ApiConfig`.
- `url.dfy`: `url::machines`, `url::location`.
- `sql.dfy`: SQL values.
- `migration.dfy`: migration rows.
- `precheck.dfy`: the reconciliation.
- `scrape.dfy`: the `logic/http.rs` scraper.
- `spawner.dfy`: the `http.rs` scraper.

## Model

| member | source | states |
|---|---|---|
| Bytes.LeBytes | src/pep.rs:17 | `to_le_bytes` gives exactly `n` bytes |
| Bytes.FromLe | src/pep.rs:17 | the value read from little-endian bytes is below 256^n |
| Bytes.FromLeLeBytes | src/pep.rs:17 | reading back the little-endian bytes of `x < 256^n` gives `x` |
| Bytes.LeBytesFromLe | src/pep.rs:30 | every byte string is the little-endian encoding of the value it reads as |
| Bytes.LeBytesInjective | src/pep.rs:30 | different values below 256^n have different little-endian bytes |
| Utf8.EncodeChar | src/pep.rs:19 | a character's UTF-8 form is 1 to 4 bytes, every byte after the first a continuation byte |
| Utf8.Encode | src/pep.rs:19 | `as_bytes` of a string has between one and four bytes per character |
| Utf8.DecodeEncodeChar | src/pep.rs:19 | the strict decoder reads a character's encoding back, whatever follows it |
| Utf8.EncodeDecodeChar | src/pep.rs:19 | whatever the strict decoder accepts is exactly the encoding of the character it yields |
| Utf8.DecodeChar | src/pep.rs:19 | the strict decoder consumes 1 to 4 bytes and yields a scalar value |
| Utf8.DecodeEncode | src/pep.rs:19 | decoding the UTF-8 bytes of any string gives the string back |
| Utf8.EncodeDecode | src/pep.rs:19 | bytes that decode are exactly the encoding of what they decode to |
| Utf8.EncodeInjective | src/pep.rs:19 | two room ids have the same UTF-8 bytes exactly when they are the same id |
| Base64Url.CharOf | src/pep.rs:30 | each sextet maps to a character of the URL-safe alphabet `A-Z a-z 0-9 - _` |
| Base64Url.ValueOf | src/pep.rs:30 | exactly the alphabet characters have a sextet value |
| Base64Url.ValueOfCharOf | src/pep.rs:30 | every sextet reads back from its character |
| Base64Url.CharOfValueOf | src/pep.rs:30 | every alphabet character is the character of its value |
| Base64Url.EncodeGroup | src/pep.rs:30 | 1, 2 or 3 bytes become 2, 3 or 4 alphabet characters |
| Base64Url.Encode | src/pep.rs:30 | the unpadded encoding has length ceil(4n/3) and only alphabet characters, so no `=` |
| Base64Url.DecodeGroup | src/pep.rs:30 | a 2-4 character group decodes only when its unused trailing bits are zero |
| Base64Url.DecodeEncodeGroup | src/pep.rs:30 | a group's characters decode back to its bytes |
| Base64Url.EncodeDecodeGroup | src/pep.rs:30 | a group that decodes is the encoding of its bytes |
| Base64Url.DecodeEncode | src/pep.rs:30 | decoding the encoding of any bytes gives the bytes back |
| Base64Url.EncodeDecode | src/pep.rs:30 | every text that decodes is the encoding of what it decodes to |
| Base64Url.EncodeInjective | src/pep.rs:30 | different byte strings have different encodings |
| Uuid.HexDigit | src/logic/db.rs:128 | a nibble becomes one lower-case hex digit |
| Uuid.HexValue | src/logic/db.rs:128 | exactly the lower-case hex digits have a nibble value |
| Uuid.Hex | src/logic/db.rs:128 | bytes become two lower-case hex digits each |
| Uuid.ParseHex | src/logic/db.rs:128 | hex text reads back as half as many bytes |
| Uuid.ParseHexHex | src/logic/db.rs:128 | reading the hex of any bytes gives the bytes back |
| Uuid.ToString | src/logic/db.rs:128-131 | `Uuid::to_string` is 36 characters: hyphens at 8, 13, 18 and 23, lower-case hex elsewhere; so a text of another length or with an upper-case letter is the text of no UUID |
| Uuid.ParseToString | src/logic/db.rs:128-131 | the canonical text of a UUID parses back to that UUID |
| Uuid.ToStringInjective | src/logic/db.rs:128-131 | different UUIDs have different texts |
| Pep.Preimage | src/pep.rs:17-26 | the layout is le4(sticker), 16 machine bytes, UTF-8 room, 16 location bytes. It is 36 + \|utf8(room)\| long, byte 0 is sticker % 256, and each part reads back from its fixed position |
| Pep.SplitPreimage | src/pep.rs:17-26 | splitting the layout at its fixed-width ends recovers the four fields |
| Pep.PreimageSplit | src/pep.rs:17-26 | every byte string that splits is the layout of the fields it splits into |
| Pep.PreimageInjective | src/pep.rs:17-26 | different identifiers have different hash inputs |
| Pep.Digest | src/pep.rs:28-30 | the digest is the 16 little-endian bytes of the hash, reading back as the hash |
| Pep.SixteenBytesEncode | src/pep.rs:30 | 16 bytes encode to 22 base64url characters without `=` that decode back to the bytes |
| Pep.CalculatePep | src/pep.rs:16-31 | always `Ok`. The result is 22 alphabet characters with no `=`, and decodes to the 16 digest bytes, which read back as the hash of the layout |
| Pep.SamePepIffSameDigest | src/pep.rs:28-30 | two identifiers get the same PEP exactly when their layouts hash alike |
| Pep.CollisionIsHashCollision | src/pep.rs:16-31 | equal PEPs for different identifiers are a collision of the hash on different inputs |
| Json.Str | src/models/api.rs:57-72 | a required string field reads only from a present JSON string |
| Json.Bool | src/models/api.rs:35-36 | a required bool field reads only from a present JSON bool |
| Json.I16 | src/models/api.rs:32 | an `i16` field reads only from an integer in [-32768, 32767] |
| Json.OptStr | src/models/api.rs:37 | an `Option<String>` is `None` when absent or null, `Some` for a string, an error otherwise |
| Json.OptI16 | src/models/api.rs:39 | an `Option<i16>` is `None` when absent or null, `Some` for an `i16`, an error otherwise |
| Api.DecodeMachineType | src/models/api.rs:4-10 | decodes exactly `"washer"` and `"dryer"`; the tag round-trips; any other tag is `UnknownVariant(tag)` |
| Api.DecodeModeType | src/models/api.rs:12-22 | decodes exactly `"pressStart"`, `"running"`, `"idle"` and `"unknown"`; any other tag is `UnknownVariant(tag)` |
| Api.MachineTypeRoundTrip | src/models/api.rs:4-10 | every machine type decodes from its own tag |
| Api.ModeTypeRoundTrip | src/models/api.rs:12-22 | every mode decodes from its own tag |
| Api.SingleUnitTag | src/models/api.rs:4-22 | finds the enum tag that an object holds as its only member with value `null`, and finds none when no tag fits |
| Api.TagText | src/models/api.rs:4-22 | reads a variant tag from either serde form, the bare string or `{"tag": null}`; other values give nothing |
| Api.TagField | src/models/api.rs:33-38 | an enum member reads as a variant only when its key is present and its tag, in either form, decodes to that variant |
| Api.TagFormsAgree | src/models/api.rs:4-22 | the object form `{"tag": null}` of a known tag reads the same as the string form |
| Api.DecodeMachine | src/models/api.rs:23-43 | a decoded machine's kind is the tag under key `"type"` and its mode the tag under `"mode"`, each in either serde form; every other field is what its key reads as: the UUIDs, strings, sticker number, door and availability flags as written, and each optional field and flattened setting as written, or `None` when the key is absent or `null` |
| Api.DescribedIdentity | src/models/api.rs:25-31 | the camelCase id fields read back the described UUIDs and strings |
| Api.DescribedState | src/models/api.rs:32-38 | the sticker, `type`, door, availability and mode keys read back the described values; `notAvailableReason` reads back the described option, `None` when the key is absent |
| Api.DescribedSettings | src/models/api.rs:39-52 | the optional and flattened settings keys read back the described options; an absent key reads as `None` |
| Api.DecodeDescribedMachine | src/models/api.rs:23-52 | every JSON object describing a machine decodes to exactly that machine, whether each `None` field is written as `null` or left out |
| Api.ReadersIgnoreOtherKeys | src/models/api.rs:23-52 | adding some other key does not change what a field reader returns |
| Api.DecodeMachineIgnoresUnknownKeys | src/models/api.rs:23-52 | keys that are not `Machine` keys are ignored |
| Api.DecodeApiRoom | src/models/api.rs:65-72 | a decoded room holds the `roomId`, `description` and `label` strings of the JSON, and the UUID that `locationId` parses to |
| Api.DecodeApiRooms | src/models/api.rs:63 | a room list decodes exactly when every element does, element by element |
| Api.DecodeApiLocation | src/models/api.rs:57-64 | a decoded location holds the `description` and `label` strings of the JSON, the UUID that `locationId` parses to, and the decoded `rooms` array element by element |
| Api.DecodeDescribedRoom | src/models/api.rs:65-72 | every JSON object describing a room decodes to exactly that room |
| Api.DecodeRoomsElementwise | src/models/api.rs:63 | a list whose every element decodes to the matching room decodes to exactly that list of rooms |
| Api.DecodeDescribedRooms | src/models/api.rs:63 | a JSON list describing rooms element by element decodes to exactly those rooms |
| Api.DecodeDescribedLocation | src/models/api.rs:57-64 | every JSON object describing a location decodes to exactly that location |
| Api.DbLocationSetKeepsLabelVariants | src/models/api.rs:74-80 | equality is field-wise, so the same id with two labels is two set members |
| Api.DbRoomSetKeepsLabelVariants | src/models/api.rs:82-88 | equality is field-wise, so the same room id with two labels is two set members |
| Endpoint.New | src/types.rs:8-10 | `location_id()` and `room_id()` of the new endpoint give back its arguments unchanged, for any strings |
| Endpoint.LocationId | src/types.rs:19-21 | the first of the two ids (no contract of its own; see `Endpoint.New`) |
| Endpoint.RoomId | src/types.rs:22-24 | the second of the two ids (no contract of its own; see `Endpoint.New`) |
| Endpoint.BuildUrl | src/types.rs:11-17 | `API_PROTO://API_HOST`, then the location and room path and `/machines`, with no port (no contract of its own; see `Endpoint.BuildUrlShape`) |
| Endpoint.BuildUrlShape | src/types.rs:11-17 | the URL starts with `API_PROTO://API_HOST`, continues with `/api/v1/location/`, ends with `/machines`, and has the length of its parts |
| Endpoint.BuildUrlSplicesIdsVerbatim | src/types.rs:11-17 | both ids appear unescaped at fixed offsets |
| Config.StrOr | src/models/config.rs:13-16 | an absent key takes the default, a present string is kept, anything else is an error |
| Config.PortOr | src/models/config.rs:17-18 | an absent port is 443, an integer in [0, 65535] is kept, anything else is an error |
| Config.DecodeEndpoint | src/models/config.rs:12 | an endpoint is a two-element array of strings `[location, room]` |
| Config.DecodeEndpoints | src/models/config.rs:12 | the endpoint list decodes exactly when every element does, keeping order |
| Config.Decode | src/models/config.rs:10-36 | a decoded configuration keeps the endpoints as the list reads and every present `proto`, `host`, `port` and `ua` as written; absent ones resolve to `"https"`, `"mycscgo.com"`, 443 and `"Hello World"` |
| Config.MissingEndpointsFails | src/models/config.rs:12 | without `endpoints` there is no configuration |
| Config.OnlyEndpointsTakesDefaults | src/models/config.rs:10-36 | a configuration holding only an `endpoints` list keeps exactly those endpoints and takes every default |
| Config.DecodeDescribedConfig | src/models/config.rs:10-36 | every configuration is read back from any object that holds its endpoints and holds each other setting or leaves it out when it is the default, in any mix |
| Config.DecodeIgnoresOtherKeys | src/models/config.rs:19-20 | other keys, `user_agent` among them, are ignored; the agent is read only from `"ua"` |
| Url.Decimal | src/utils.rs:17 | the port is written in decimal without leading zeros |
| Url.DigitsValue | src/utils.rs:17 | the value of a digit string |
| Url.DigitsValueDecimal | src/utils.rs:17 | the decimal text of a port reads back as the port |
| Url.DecimalInjective | src/utils.rs:17 | different ports give different texts |
| Url.LocationShape | src/utils.rs:20-27 | `location` is `proto://host:port`, then `/api/v1/location/`, then the id |
| Url.MachinesShape | src/utils.rs:12-19 | `machines` is `proto://host:port/api/v1/location/<l>/room/<r>/machines`, with the ids at fixed offsets |
| Url.MachinesExtendsLocation | src/utils.rs:12-27 | `machines(c,l,r)` equals `location(c,l) + "/room/" + r + "/machines"`, so the location URL is its prefix |
| Url.OnlyProtoHostPortMatter | src/utils.rs:15-26 | the URLs depend only on protocol, host and port |
| Url.Location | src/utils.rs:20-27 | the location id reads back out of the URL: the URL is `proto://host:port/api/v1/location/` followed by the id |
| Url.Machines | src/utils.rs:12-19 | `proto://host:port`, then the location and room path and `/machines` (no contract of its own; see `Url.MachinesShape` and `Url.MachinesExtendsLocation`) |
| Url.MachinesIdsNotEscaped | src/utils.rs:12-19 | ids are not escaped: for any ids, moving a `/room/` segment from the end of the location id to the front of the room id leaves the machines URL unchanged, so distinct endpoints can share a URL |
| Url.BuildUrlIsMachinesWithoutPort | src/types.rs:11-17 | with the same protocol and host, `build_url` is `url::machines` with the `:port` part removed |
| Sql.GetByIndex | src/db.rs:28 | `get_by_index` gives a value exactly for an index inside the row |
| Sql.AsInt | src/db.rs:35 | `as_int` gives a value exactly for an integer |
| Sql.AsText | src/db.rs:50 | `as_text` gives a value exactly for text |
| Sql.AsTimestamp | src/db.rs:65 | `as_timestamp` gives a value exactly for a timestamp |
| Migration.AsI32 | src/db.rs:39 | `as i32` keeps the value modulo 2^32 in the `i32` range, and is the identity on that range |
| Migration.AsU64 | src/db.rs:88 | `as u64` keeps the value modulo 2^64 in the `u64` range, and adds 2^64 to a negative `i64` |
| Migration.DecodeRow | src/db.rs:26-92 | for any message for a missing column 3: a row decodes exactly when all four columns are present with the right types and the time converts, the fields are `version as i32`, the name, the converted time and `checksum as u64`, and a valid three-column row gets that message |
| Migration.MigrationFromRowAsWritten | src/db.rs:26-92 | `migration_from_row` as written: it succeeds exactly when the corrected decoder does and agrees with it, except that a three-column row may fail with "Failed to get index 0" |
| Migration.MigrationFromRow | src/db.rs:26-92 | the corrected decoder, where a missing column 3 names index 3: a row decodes exactly when all four columns are present with the right types and the time converts. The fields are `version as i32`, the name, the converted time, and `checksum as u64` |
| Migration.FirstFailingColumnDecides | src/db.rs:27-91 | columns are checked 0 to 3 and the first failing column's error is returned (index message for each column) |
| Migration.AsWrittenFirstFailingColumnDecides | src/db.rs:27-91 | the same order holds in the code as written, where a missing column 3 reports index 0 |
| Migration.AsWrittenMislabelsMissingChecksum | src/db.rs:76-82 | a three-column row with valid columns 0 to 2 fails with "Failed to get index 0" |
| Migration.MissingColumnErrorNamesColumn | src/db.rs:27-82 | in the corrected decoder, a missing column `k` is reported as "Failed to get index k" |
| Migration.Query | src/db.rs:95-107 | rows are decoded by `migration_from_row` as written. The result is one migration per row, in order, when every row decodes; otherwise it is the error of the first row that does not. A failed `SELECT` passes its error through |
| Precheck.CollectConfigured | src/logic/db.rs:70-79 | the configured sets are exactly the endpoints' location ids and room ids |
| Precheck.Missing | src/logic/db.rs:86-93 | missing ids are configured, not stored, and include every configured id that is not stored |
| Precheck.QueryAsSet | src/logic/db.rs:185-204 | succeeds exactly when every row has a text column 0, giving the set of those texts. Otherwise it fails with the first bad row's message; a failed `SELECT` passes its error through |
| Precheck.FirstBadRowErrorUnique | src/logic/db.rs:185-204 | the row loop stops at its first bad row, so the error it reports is fixed by the rows |
| PrecheckStaging.DbLocationOf | src/logic/db.rs:128-134 | the location record takes the reply's UUID as text, its description and its label (no contract of its own; see `PrecheckStaging.DbLocationIdParsesBack`) |
| PrecheckStaging.DbLocationIdParsesBack | src/logic/db.rs:128-134 | the stored location id is a UUID text that parses back to the reply's UUID |
| PrecheckStaging.DbRoomOf | src/logic/db.rs:140-144 | the room record copies the reply room's id, description and label (no contract of its own; see `PrecheckInsert.RoomInsertInjective`) |
| PrecheckStaging.Enumerate | src/logic/db.rs:103-180 | a hash set is visited in some order, each element exactly once |
| PrecheckStaging.StageAll | src/logic/db.rs:101-146 | one request per configured location, each exactly once, staging exactly the locations and rooms that the replies contribute |
| PrecheckInsert.LocationInsert | src/logic/db.rs:152-160 | the location insert binds the id, SQL NULL and the label (no contract of its own; see `PrecheckInsert.LocationInsertIgnoresDescription`) |
| PrecheckInsert.RoomInsert | src/logic/db.rs:167-175 | the room insert binds the id, description and label (no contract of its own; see `PrecheckInsert.RoomInsertInjective`) |
| PrecheckInsert.LocationInsertIgnoresDescription | src/logic/db.rs:152-164 | two locations give the same insert exactly when their id and label agree; the description is sent as NULL |
| PrecheckInsert.RoomInsertInjective | src/logic/db.rs:167-179 | every room field reaches the insert |
| PrecheckInsert.RunInserts | src/logic/db.rs:152-180 | every staged record's insert runs exactly once, and a failure is only recorded, with the rest still running |
| PrecheckRun.RunPrecheck | src/logic/db.rs:64-182 | the first failure wins, stored locations before stored rooms: a failed `SELECT` gives its own error, an unreadable row the error of the first bad row. Otherwise it asks once per configured location and stages the missing records the replies carry. Location inserts run before room inserts, and failures are recorded |
| PrecheckProperties.StagedLocationsExactly | src/logic/db.rs:128-134 | a location is staged exactly when it is the record of a reply whose UUID text is missing |
| PrecheckProperties.StagedRoomsExactly | src/logic/db.rs:136-146 | the staged rooms are exactly the reply rooms whose id is missing |
| PrecheckProperties.FailedRequestIsSkipped | src/logic/db.rs:114-125 | a location whose request or reply fails stages nothing |
| PrecheckProperties.NothingMissingNothingStaged | src/logic/db.rs:86-180 | when stored covers configured for both locations and rooms, nothing is staged |
| PrecheckProperties.StagedLocationIdIsCanonical | src/logic/db.rs:128-131 | a staged location id is missing and is the canonical text of a UUID |
| PrecheckProperties.StagedMonotone | src/logic/db.rs:128-146 | fewer missing ids stage a subset |
| PrecheckProperties.StagedIdsAreMissing | src/logic/db.rs:128-146 | every staged location or room id is missing |
| PrecheckProperties.SecondRunStagesNothing | src/logic/db.rs:86-180 | once the staged records are stored, a second run with the same replies stages nothing |
| Scrape.SleepSeconds | src/logic/http.rs:136-142 | the sleep is 60 + offset seconds, within [51, 69]; the `u64` cast never wraps |
| Scrape.SleepSecondsOnto | src/logic/http.rs:136-142 | every duration in [51, 69] can be drawn |
| Scrape.HttpEndpoints | src/logic/http.rs:56-78 | one task per configured endpoint, in order, polling `url::machines(config, loc, room)` |
| Scrape.Classify | src/logic/http.rs:106-109 | a 4xx or 5xx status becomes `ApiError`; any other response is passed on as `ApiResponse` |
| Scrape.Live | src/logic/http.rs:92-101 | the live turns are the ones before the first cancellation |
| Scrape.ScrapeRun | src/logic/http.rs:83-120 | each live turn sleeps 60 + its drawn offset seconds (51 to 69) and makes one request to the task's URL. At most one message per request reaches the channel, and the task stops exactly when cancelled |
| Scrape.CancelIsFinal | src/logic/http.rs:98-101 | nothing after a cancellation happens |
| Scrape.SentAreProducedWhenOpen | src/logic/http.rs:103-113 | with an open channel, every response is sent, classified, in order |
| Scrape.TransportErrorSendsNothing | src/logic/http.rs:115-117 | a transport error sends nothing and the loop goes on |
| Scrape.RefusedSendContinues | src/logic/http.rs:111-113 | a refused send is only counted and the loop goes on |
| Scrape.ControlRun | src/logic/http.rs:15-53 | every fetch is of a location URL. There is at most one reply per fetch, and one per fetch while the loop runs |
| Scrape.OneReplyPerRequest | src/logic/http.rs:40-50 | when every request is served, each gets exactly one reply, in order, with the body fetched from `url::location(config, id)` |
| Scrape.UnservedRequestPanics | src/logic/http.rs:44-49 | a failed fetch or a dropped requester panics |
| Scrape.StopIsFinal | src/logic/http.rs:24-35 | the loop ends at the first cancellation or channel close |
| Spawner.SleepSeconds | src/http.rs:71-76 | the sleep is 60 + offset seconds, within [60, 69], never below the minute |
| Spawner.SleepSecondsOnto | src/http.rs:71-76 | every duration in [60, 69] can be drawn |
| Spawner.HttpSpawner | src/http.rs:13-35 | a client build failure is an error. Otherwise there is one task and one cancel sender per endpoint, in order, each sender paired with its task and none shared |
| Spawner.TaskRun | src/http.rs:39-69 | each turn before the cancel sleeps 60 + its offset seconds (60 to 69) and requests `build_url()`; the cancel stops the task before any further request; with no cancel every event is a turn. So what the task does depends on the offsets and the cancel alone, never on a request's outcome |

## Left out

- tokio's runtime, `select!`, the mpsc and oneshot channels, `CancellationToken`,
  `JoinSet` and scheduling. Loops are functions of an observed event sequence, and the race
  between sleep and cancellation is an event. A finite sequence stands for a finite
  observation of a loop that otherwise never ends.
- reqwest: building the client, `default_headers`, the `USER_AGENT` lookup and the HTTP
  exchange. Only the outcome (transport error, status code, decoded body) is an input.
- The xxh3_128 internals. The hash is a parameter, so the model proves nothing about
  avalanche behaviour or collision rates.
- `rand::random_range`. The offset is a parameter restricted to its range.
- SQL execution, `select`/`dml`, refinery's migration runner and
  `AsyncTransaction::execute`. The `SELECT` results and insert outcomes are inputs.
- `time::OffsetDateTime::from_unix_timestamp`. It is the partial conversion `fromUnix`.
- `src/main.rs` (environment parsing, `ctrl_c`, runtime set-up, hard-coded endpoints).
- The empty `db_insert` and `db_task` stubs. The `db_controller` loop after the
  reconciliation is also left out; its only arms do nothing or call `unimplemented!`.
- Tracing and logging. A logged error is modelled as "recorded and the loop goes on".
- `HashSet` iteration order. The model visits sets in an unspecified order, and the
  contracts do not depend on it.
- `utils::cancel` (the cancel channel of `http.rs`) is not part of this model. A cancel
  channel is a number shared by a sender and its task.
- The uuid crate's text parser. Which JSON strings it accepts (braced, simple, URN,
  upper-case forms) is the parameter `parseUuid`. The round-trip lemmas use the canonical
  form.
- JSON numbers with fractions or exponents, and which of several bad fields serde reports
  (that depends on key order). A decode failure is `None`. A JSON object is a map, so it
  cannot hold a key twice; serde rejects such a duplicate, and that rejection is not
  modelled.
- The serialised form of `RoomMachinesEndpoint` is not part of this model, because
  `src/types.rs` derives no `Deserialize`. The configuration reads each endpoint as serde's
  tuple-struct form, `[location_id, room_id]`.
- sql_middleware's value coercions. Each accessor accepts only its own variant.
- Scrape.ControlRun: the `MissingMachineIdent` arm is `unimplemented!`. It is modelled as a
  panic that ends the loop, with no further behaviour.
- PrecheckInsert.RunInserts: an insert's outcome is a fixed function of the statement.
  Database state, which could make a repeated identical insert fail, is not modelled.

## Findings

| source | as written | input that shows it | evidently intended | confidence | as-written member | corrected member |
|---|---|---|---|---|---|---|
| src/db.rs:76-82 | a row without column 3 fails with "Failed to get index 0" | a three-column row `[Int(1), Text("init"), Timestamp(0)]` whose time converts | "Failed to get index 3", as columns 1 and 2 name their own index | not executed | Migration.AsWrittenMislabelsMissingChecksum | Migration.MissingColumnErrorNamesColumn |

=== FILE: api.dfy ===
/** The remote API's records (`models/api.rs`): machine kinds and modes decoded from
    their tags, the machine listing, the location metadata, and the records staged for
    insertion into the database. */
module Api {
  import opened Wrappers
  import opened Json
  import opened Uuid

  datatype MachineType = Washer | Dryer

  datatype ModeType = PressStart | Running | Idle | Unknown

  datatype TagError = UnknownVariant(tag: string)

  /** The tag serde writes for each machine kind. */
  function MachineTypeTag(t: MachineType): string {
    match t
    case Washer => "washer"
    case Dryer => "dryer"
  }

  /** The tag serde writes for each mode. */
  function ModeTypeTag(m: ModeType): string {
    match m
    case PressStart => "pressStart"
    case Running => "running"
    case Idle => "idle"
    case Unknown => "unknown"
  }

  /** Decodes a machine kind: exactly `"washer"` and `"dryer"`, case-sensitive. */
  function DecodeMachineType(tag: string): (r: Result<MachineType, TagError>)
    ensures r.Ok? <==> tag == "washer" || tag == "dryer"
    ensures r.Ok? ==> MachineTypeTag(r.value) == tag
    ensures r.Err? ==> r.error == UnknownVariant(tag)
  {
    if tag == "washer" then Ok(Washer)
    else if tag == "dryer" then Ok(Dryer)
    else Err(UnknownVariant(tag))
  }

  /** Decodes a mode: exactly `"pressStart"`, `"running"`, `"idle"` and `"unknown"`. */
  function DecodeModeType(tag: string): (r: Result<ModeType, TagError>)
    ensures r.Ok? <==> tag in {"pressStart", "running", "idle", "unknown"}
    ensures r.Ok? ==> ModeTypeTag(r.value) == tag
    ensures r.Err? ==> r.error == UnknownVariant(tag)
  {
    if tag == "pressStart" then Ok(PressStart)
    else if tag == "running" then Ok(Running)
    else if tag == "idle" then Ok(Idle)
    else if tag == "unknown" then Ok(Unknown)
    else Err(UnknownVariant(tag))
  }

  /** Every machine kind decodes from its own tag. */
  lemma MachineTypeRoundTrip(t: MachineType)
    ensures DecodeMachineType(MachineTypeTag(t)) == Ok(t)
  {
  }

  /** Every mode decodes from its own tag. */
  lemma ModeTypeRoundTrip(m: ModeType)
    ensures DecodeModeType(ModeTypeTag(m)) == Ok(m)
  {
  }

  datatype MachineSettings = MachineSettings(
    soil: Option<string>,
    cycle: Option<string>,
    washerTemp: Option<string>,
    dryerTemp: Option<string>)

  datatype Machine = Machine(
    opaqueId: Uuid,
    locationId: Uuid,
    roomId: string,
    nfcId: Uuid,
    qrCodeId: string,
    licensePlate: string,
    stickerNumber: int,
    kind: MachineType,
    doorClosed: bool,
    available: bool,
    notAvailableReason: Option<string>,
    mode: ModeType,
    timeRemaining: Option<int>,
    settings: MachineSettings)

  /** The JSON keys a machine is read from: camelCase field names, except that the kind
      is read from `"type"`; the settings are flattened into the same object. */
  const MachineKeys: set<string> := {
    "opaqueId", "locationId", "roomId", "nfcId", "qrCodeId", "licensePlate", "stickerNumber",
    "type", "doorClosed", "available", "notAvailableReason", "mode", "timeRemaining",
    "soil", "cycle", "washerTemp", "dryerTemp"}

  /** A required UUID member, read with the UUID text parser `parseUuid`. */
  function UuidField(obj: Object, key: string, parseUuid: string -> Option<Uuid>): Option<Uuid> {
    match Str(obj, key)
    case None => None
    case Some(s) => parseUuid(s)
  }

  /** `j` spells the unit variant `tag` in one of the two forms serde accepts: the tag
      string, or an object whose only member is the tag with value `null`. */
  predicate HoldsTag(j: Json, tag: string) {
    j == JStr(tag) || j == JObj(map[tag := JNull])
  }

  /** The first of `tags` that `fields` holds as its only member, with value `null`. */
  function SingleUnitTag(fields: map<string, Json>, tags: seq<string>): (r: Option<string>)
    ensures r.Some? ==> r.value in tags && fields == map[r.value := JNull]
    ensures r.None? ==> forall i :: 0 <= i < |tags| ==> fields != map[tags[i] := JNull]
    decreases |tags|
  {
    if |tags| == 0 then None
    else if fields == map[tags[0] := JNull] then Some(tags[0])
    else SingleUnitTag(fields, tags[1..])
  }

  /** The variant tag a JSON value spells, given the enum's tags; `None` for any other
      value. */
  function TagText(j: Json, tags: seq<string>): (r: Option<string>)
    ensures r.Some? ==> HoldsTag(j, r.value)
    ensures j.JStr? ==> r == Some(j.s)
    ensures r.None? ==> forall i :: 0 <= i < |tags| ==> !HoldsTag(j, tags[i])
  {
    match j
    case JStr(s) => Some(s)
    case JObj(fields) => SingleUnitTag(fields, tags)
    case _ => None
  }

  /** A unit-variant enum member, read from its tag in either form; `tags` lists the
      enum's tags. */
  function TagField<T>(obj: Object, key: string, decode: string -> Result<T, TagError>, tags: seq<string>): (r: Option<T>)
    ensures r.Some? ==> key in obj && TagText(obj[key], tags).Some? && decode(TagText(obj[key], tags).value) == Ok(r.value)
  {
    if key !in obj then None
    else match TagText(obj[key], tags)
      case None => None
      case Some(s) => if decode(s).Ok? then Some(decode(s).value) else None
  }

  const MachineTypeTags: seq<string> := ["washer", "dryer"]
  const ModeTypeTags: seq<string> := ["pressStart", "running", "idle", "unknown"]

  /** The object form of a tag reads the same as the string form. */
  lemma {:induction false} TagFormsAgree<T>(obj: Object, key: string, decode: string -> Result<T, TagError>, tags: seq<string>, i: nat)
    requires i < |tags|
    ensures TagField(obj[key := JObj(map[tags[i] := JNull])], key, decode, tags)
         == TagField(obj[key := JStr(tags[i])], key, decode, tags)
  {
    var t := TagText(JObj(map[tags[i] := JNull]), tags);
    assert HoldsTag(JObj(map[tags[i] := JNull]), tags[i]);
    assert t.Some?;
    assert t.value in map[t.value := JNull];
    assert t.value == tags[i];
  }

  /** One machine of a room's machine list; `None` when a required member is missing,
      has the wrong type, or is out of range. Unknown members are ignored. */
  function DecodeMachine(obj: Object, parseUuid: string -> Option<Uuid>): (r: Option<Machine>)
    ensures r.Some? ==> "type" in obj && HoldsTag(obj["type"], MachineTypeTag(r.value.kind))
    ensures r.Some? ==> "mode" in obj && HoldsTag(obj["mode"], ModeTypeTag(r.value.mode))
    ensures r.Some? ==> "opaqueId" in obj && "locationId" in obj && "nfcId" in obj && "roomId" in obj
    ensures r.Some? ==>
      && UuidField(obj, "opaqueId", parseUuid) == Some(r.value.opaqueId)
      && UuidField(obj, "locationId", parseUuid) == Some(r.value.locationId)
      && UuidField(obj, "nfcId", parseUuid) == Some(r.value.nfcId)
      && Str(obj, "roomId") == Some(r.value.roomId)
      && Str(obj, "qrCodeId") == Some(r.value.qrCodeId)
      && Str(obj, "licensePlate") == Some(r.value.licensePlate)
    ensures r.Some? ==>
      && I16(obj, "stickerNumber") == Some(r.value.stickerNumber)
      && Bool(obj, "doorClosed") == Some(r.value.doorClosed)
      && Bool(obj, "available") == Some(r.value.available)
      && OptStr(obj, "notAvailableReason") == Some(r.value.notAvailableReason)
      && OptI16(obj, "timeRemaining") == Some(r.value.timeRemaining)
    ensures r.Some? ==>
      && OptStr(obj, "soil") == Some(r.value.settings.soil)
      && OptStr(obj, "cycle") == Some(r.value.settings.cycle)
      && OptStr(obj, "washerTemp") == Some(r.value.settings.washerTemp)
      && OptStr(obj, "dryerTemp") == Some(r.value.settings.dryerTemp)
  {
    var opaqueId := UuidField(obj, "opaqueId", parseUuid);
    var locationId := UuidField(obj, "locationId", parseUuid);
    var roomId := Str(obj, "roomId");
    var nfcId := UuidField(obj, "nfcId", parseUuid);
    var qrCodeId := Str(obj, "qrCodeId");
    var licensePlate := Str(obj, "licensePlate");
    var stickerNumber := I16(obj, "stickerNumber");
    var kind := TagField(obj, "type", DecodeMachineType, MachineTypeTags);
    var doorClosed := Bool(obj, "doorClosed");
    var available := Bool(obj, "available");
    var notAvailableReason := OptStr(obj, "notAvailableReason");
    var mode := TagField(obj, "mode", DecodeModeType, ModeTypeTags);
    var timeRemaining := OptI16(obj, "timeRemaining");
    var soil := OptStr(obj, "soil");
    var cycle := OptStr(obj, "cycle");
    var washerTemp := OptStr(obj, "washerTemp");
    var dryerTemp := OptStr(obj, "dryerTemp");
    if && opaqueId.Some? && locationId.Some? && roomId.Some? && nfcId.Some? && qrCodeId.Some?
       && licensePlate.Some? && stickerNumber.Some? && kind.Some? && doorClosed.Some?
       && available.Some? && notAvailableReason.Some? && mode.Some? && timeRemaining.Some?
       && soil.Some? && cycle.Some? && washerTemp.Some? && dryerTemp.Some?
    then
      Some(Machine(opaqueId.value, locationId.value, roomId.value, nfcId.value, qrCodeId.value,
        licensePlate.value, stickerNumber.value, kind.value, doorClosed.value, available.value,
        notAvailableReason.value, mode.value, timeRemaining.value,
        MachineSettings(soil.value, cycle.value, washerTemp.value, dryerTemp.value)))
    else None
  }

  function OptStrJson(o: Option<string>): Json {
    match o
    case None => JNull
    case Some(s) => JStr(s)
  }

  function OptIntJson(o: Option<int>): Json {
    match o
    case None => JNull
    case Some(i) => JInt(i)
  }

  /** `obj` holds the identity members of machine `m`, UUIDs in their hyphenated text. */
  ghost predicate DescribesIdentity(obj: Object, m: Machine) {
    && "opaqueId" in obj && obj["opaqueId"] == JStr(ToString(m.opaqueId))
    && "locationId" in obj && obj["locationId"] == JStr(ToString(m.locationId))
    && "roomId" in obj && obj["roomId"] == JStr(m.roomId)
    && "nfcId" in obj && obj["nfcId"] == JStr(ToString(m.nfcId))
    && "qrCodeId" in obj && obj["qrCodeId"] == JStr(m.qrCodeId)
    && "licensePlate" in obj && obj["licensePlate"] == JStr(m.licensePlate)
  }

  /** `obj` holds the `Option<String>` member `o` under `key`: `null` or absent for
      `None`, a string for `Some`. */
  ghost predicate DescribesOptStr(obj: Object, key: string, o: Option<string>) {
    if key in obj then obj[key] == OptStrJson(o) else o.None?
  }

  /** `obj` holds the `Option<i16>` member `o` under `key`: `null` or absent for `None`,
      an integer for `Some`. */
  ghost predicate DescribesOptInt(obj: Object, key: string, o: Option<int>) {
    if key in obj then obj[key] == OptIntJson(o) else o.None?
  }

  /** `obj` holds the state members of machine `m`, the enums as tag strings. */
  ghost predicate DescribesState(obj: Object, m: Machine) {
    && "stickerNumber" in obj && obj["stickerNumber"] == JInt(m.stickerNumber)
    && "type" in obj && obj["type"] == JStr(MachineTypeTag(m.kind))
    && "doorClosed" in obj && obj["doorClosed"] == JBool(m.doorClosed)
    && "available" in obj && obj["available"] == JBool(m.available)
    && DescribesOptStr(obj, "notAvailableReason", m.notAvailableReason)
    && "mode" in obj && obj["mode"] == JStr(ModeTypeTag(m.mode))
  }

  /** `obj` holds the remaining time and the flattened settings of machine `m`. */
  ghost predicate DescribesSettings(obj: Object, m: Machine) {
    && DescribesOptInt(obj, "timeRemaining", m.timeRemaining)
    && DescribesOptStr(obj, "soil", m.settings.soil)
    && DescribesOptStr(obj, "cycle", m.settings.cycle)
    && DescribesOptStr(obj, "washerTemp", m.settings.washerTemp)
    && DescribesOptStr(obj, "dryerTemp", m.settings.dryerTemp)
  }

  /** `obj` holds the members the API sends for machine `m`, possibly among other
      members. */
  ghost predicate DescribesMachine(obj: Object, m: Machine) {
    DescribesIdentity(obj, m) && DescribesState(obj, m) && DescribesSettings(obj, m)
  }

  /** A machine whose integers fit the source's `i16` fields. */
  predicate WellFormedMachine(m: Machine) {
    && I16_MIN <= m.stickerNumber <= I16_MAX
    && (m.timeRemaining.Some? ==> I16_MIN <= m.timeRemaining.value <= I16_MAX)
  }

  /** The identity members of a described machine read back as its fields. */
  lemma DescribedIdentity(obj: Object, m: Machine, parseUuid: string -> Option<Uuid>)
    requires DescribesIdentity(obj, m)
    requires parseUuid(ToString(m.opaqueId)) == Some(m.opaqueId)
    requires parseUuid(ToString(m.locationId)) == Some(m.locationId)
    requires parseUuid(ToString(m.nfcId)) == Some(m.nfcId)
    ensures UuidField(obj, "opaqueId", parseUuid) == Some(m.opaqueId)
    ensures UuidField(obj, "locationId", parseUuid) == Some(m.locationId)
    ensures UuidField(obj, "nfcId", parseUuid) == Some(m.nfcId)
    ensures Str(obj, "roomId") == Some(m.roomId)
    ensures Str(obj, "qrCodeId") == Some(m.qrCodeId)
    ensures Str(obj, "licensePlate") == Some(m.licensePlate)
  {
  }

  /** The state members of a described machine read back as its fields. */
  lemma DescribedState(obj: Object, m: Machine)
    requires WellFormedMachine(m)
    requires DescribesState(obj, m)
    ensures I16(obj, "stickerNumber") == Some(m.stickerNumber)
    ensures TagField(obj, "type", DecodeMachineType, MachineTypeTags) == Some(m.kind)
    ensures Bool(obj, "doorClosed") == Some(m.doorClosed)
    ensures Bool(obj, "available") == Some(m.available)
    ensures OptStr(obj, "notAvailableReason") == Some(m.notAvailableReason)
    ensures TagField(obj, "mode", DecodeModeType, ModeTypeTags) == Some(m.mode)
  {
    MachineTypeRoundTrip(m.kind);
    ModeTypeRoundTrip(m.mode);
  }

  /** The remaining members of a described machine read back as its fields. */
  lemma DescribedSettings(obj: Object, m: Machine)
    requires WellFormedMachine(m)
    requires DescribesSettings(obj, m)
    ensures OptI16(obj, "timeRemaining") == Some(m.timeRemaining)
    ensures OptStr(obj, "soil") == Some(m.settings.soil)
    ensures OptStr(obj, "cycle") == Some(m.settings.cycle)
    ensures OptStr(obj, "washerTemp") == Some(m.settings.washerTemp)
    ensures OptStr(obj, "dryerTemp") == Some(m.settings.dryerTemp)
  {
  }

  /** Any object that describes a machine decodes to that machine, whatever other
      members it has. */
  lemma DecodeDescribedMachine(obj: Object, m: Machine)
    requires WellFormedMachine(m)
    requires DescribesMachine(obj, m)
    ensures DecodeMachine(obj, Parse) == Some(m)
  {
    ParseToString(m.opaqueId);
    ParseToString(m.locationId);
    ParseToString(m.nfcId);
    DescribedIdentity(obj, m, Parse);
    DescribedState(obj, m);
    DescribedSettings(obj, m);
  }

  /** Every field reader looks at its own key only. */
  lemma ReadersIgnoreOtherKeys(obj: Object, k: string, v: Json, key: string, parseUuid: string -> Option<Uuid>)
    requires key != k
    ensures var obj' := obj[k := v];
      && Str(obj', key) == Str(obj, key)
      && Bool(obj', key) == Bool(obj, key)
      && I16(obj', key) == I16(obj, key)
      && OptStr(obj', key) == OptStr(obj, key)
      && OptI16(obj', key) == OptI16(obj, key)
      && UuidField(obj', key, parseUuid) == UuidField(obj, key, parseUuid)
  {
    var obj' := obj[k := v];
    assert (key in obj' <==> key in obj) && (key in obj ==> obj'[key] == obj[key]);
  }

  /** The same for the two enum members. */
  lemma TagReadersIgnoreOtherKeys(obj: Object, k: string, v: Json)
    requires k != "type" && k != "mode"
    ensures var obj' := obj[k := v];
      && TagField(obj', "type", DecodeMachineType, MachineTypeTags) == TagField(obj, "type", DecodeMachineType, MachineTypeTags)
      && TagField(obj', "mode", DecodeModeType, ModeTypeTags) == TagField(obj, "mode", DecodeModeType, ModeTypeTags)
  {
    var obj' := obj[k := v];
    assert ("type" in obj' <==> "type" in obj) && ("type" in obj ==> obj'["type"] == obj["type"]);
    assert ("mode" in obj' <==> "mode" in obj) && ("mode" in obj ==> obj'["mode"] == obj["mode"]);
  }

  /** Members other than the machine keys play no part: `"r#type"`, snake_case names
      and anything else are ignored. */
  lemma DecodeMachineIgnoresUnknownKeys(obj: Object, k: string, v: Json, parseUuid: string -> Option<Uuid>)
    requires k !in MachineKeys
    ensures DecodeMachine(obj[k := v], parseUuid) == DecodeMachine(obj, parseUuid)
  {
    ReadersIgnoreOtherKeys(obj, k, v, "opaqueId", parseUuid);
    ReadersIgnoreOtherKeys(obj, k, v, "locationId", parseUuid);
    ReadersIgnoreOtherKeys(obj, k, v, "roomId", parseUuid);
    ReadersIgnoreOtherKeys(obj, k, v, "nfcId", parseUuid);
    ReadersIgnoreOtherKeys(obj, k, v, "qrCodeId", parseUuid);
    ReadersIgnoreOtherKeys(obj, k, v, "licensePlate", parseUuid);
    ReadersIgnoreOtherKeys(obj, k, v, "stickerNumber", parseUuid);
    TagReadersIgnoreOtherKeys(obj, k, v);
    ReadersIgnoreOtherKeys(obj, k, v, "doorClosed", parseUuid);
    ReadersIgnoreOtherKeys(obj, k, v, "available", parseUuid);
    ReadersIgnoreOtherKeys(obj, k, v, "notAvailableReason", parseUuid);
    ReadersIgnoreOtherKeys(obj, k, v, "timeRemaining", parseUuid);
    ReadersIgnoreOtherKeys(obj, k, v, "soil", parseUuid);
    ReadersIgnoreOtherKeys(obj, k, v, "cycle", parseUuid);
    ReadersIgnoreOtherKeys(obj, k, v, "washerTemp", parseUuid);
    ReadersIgnoreOtherKeys(obj, k, v, "dryerTemp", parseUuid);
  }

  /** A location's metadata as the API sends it. */
  datatype ApiRoom = ApiRoom(locationId: Uuid, roomId: string, description: string, labelText: string)

  datatype ApiLocation = ApiLocation(locationId: Uuid, description: string, labelText: string, rooms: seq<ApiRoom>)

  /** One room of a location; `description` and `label` are required strings. */
  function DecodeApiRoom(j: Json, parseUuid: string -> Option<Uuid>): (r: Option<ApiRoom>)
    ensures r.Some? ==> j.JObj? && "locationId" in j.fields && "roomId" in j.fields && "description" in j.fields && "label" in j.fields
    ensures r.Some? ==> j.fields["description"] == JStr(r.value.description) && j.fields["label"] == JStr(r.value.labelText)
    ensures r.Some? ==> j.fields["roomId"] == JStr(r.value.roomId)
    ensures r.Some? ==> j.fields["locationId"].JStr? && parseUuid(j.fields["locationId"].s) == Some(r.value.locationId)
  {
    if !j.JObj? then None
    else
      var obj := j.fields;
      match (UuidField(obj, "locationId", parseUuid), Str(obj, "roomId"), Str(obj, "description"), Str(obj, "label"))
      case (Some(loc), Some(room), Some(d), Some(l)) => Some(ApiRoom(loc, room, d, l))
      case _ => None
  }

  /** Decodes every room of a list, failing if any one fails. */
  function DecodeApiRooms(js: seq<Json>, parseUuid: string -> Option<Uuid>): (r: Option<seq<ApiRoom>>)
    ensures r.Some? <==> forall i :: 0 <= i < |js| ==> DecodeApiRoom(js[i], parseUuid).Some?
    ensures r.Some? ==> |r.value| == |js| && forall i :: 0 <= i < |js| ==> DecodeApiRoom(js[i], parseUuid) == Some(r.value[i])
  {
    if |js| == 0 then Some([])
    else
      var head := DecodeApiRoom(js[0], parseUuid);
      var rest := DecodeApiRooms(js[1..], parseUuid);
      if head.Some? && rest.Some? then Some([head.value] + rest.value)
      else
        assert head.None? || exists i :: 1 <= i < |js| && DecodeApiRoom(js[i], parseUuid).None? by {
          if head.Some? {
            var i :| 0 <= i < |js| - 1 && DecodeApiRoom(js[1..][i], parseUuid).None?;
            assert DecodeApiRoom(js[i + 1], parseUuid).None?;
          }
        }
        None
  }

  /** A location's metadata: `locationId`, `description`, `label` and the list `rooms`. */
  function DecodeApiLocation(j: Json, parseUuid: string -> Option<Uuid>): (r: Option<ApiLocation>)
    ensures r.Some? ==> j.JObj? && "locationId" in j.fields && "description" in j.fields && "label" in j.fields && "rooms" in j.fields
    ensures r.Some? ==> j.fields["rooms"].JArr? && DecodeApiRooms(j.fields["rooms"].items, parseUuid) == Some(r.value.rooms)
    ensures r.Some? ==> j.fields["description"] == JStr(r.value.description) && j.fields["label"] == JStr(r.value.labelText)
    ensures r.Some? ==> j.fields["locationId"].JStr? && parseUuid(j.fields["locationId"].s) == Some(r.value.locationId)
  {
    if !j.JObj? then None
    else
      var obj := j.fields;
      var rooms := if "rooms" in obj && obj["rooms"].JArr? then DecodeApiRooms(obj["rooms"].items, parseUuid) else None;
      match (UuidField(obj, "locationId", parseUuid), Str(obj, "description"), Str(obj, "label"), rooms)
      case (Some(loc), Some(d), Some(l), Some(rs)) => Some(ApiLocation(loc, d, l, rs))
      case _ => None
  }

  /** `j` holds the members the API sends for room `r`. */
  ghost predicate DescribesRoom(j: Json, r: ApiRoom) {
    && j.JObj?
    && "locationId" in j.fields && "roomId" in j.fields && "description" in j.fields && "label" in j.fields
    && j.fields["locationId"] == JStr(ToString(r.locationId))
    && j.fields["roomId"] == JStr(r.roomId)
    && j.fields["description"] == JStr(r.description)
    && j.fields["label"] == JStr(r.labelText)
  }

  /** `j` holds the members the API sends for location `l`, its rooms in order. */
  ghost predicate DescribesLocation(j: Json, l: ApiLocation) {
    && j.JObj?
    && "locationId" in j.fields && "description" in j.fields && "label" in j.fields && "rooms" in j.fields
    && j.fields["locationId"] == JStr(ToString(l.locationId))
    && j.fields["description"] == JStr(l.description)
    && j.fields["label"] == JStr(l.labelText)
    && j.fields["rooms"].JArr?
    && |j.fields["rooms"].items| == |l.rooms|
    && forall i :: 0 <= i < |l.rooms| ==> DescribesRoom(j.fields["rooms"].items[i], l.rooms[i])
  }

  /** Any JSON that describes a room decodes to that room. */
  lemma DecodeDescribedRoom(j: Json, r: ApiRoom)
    requires DescribesRoom(j, r)
    ensures DecodeApiRoom(j, Parse) == Some(r)
  {
    ParseToString(r.locationId);
    assert UuidField(j.fields, "locationId", Parse) == Some(r.locationId);
  }

  /** A list whose every element decodes decodes to the list of those rooms, in order. */
  lemma DecodeRoomsElementwise(js: seq<Json>, rooms: seq<ApiRoom>, parseUuid: string -> Option<Uuid>)
    requires |js| == |rooms|
    requires forall i :: 0 <= i < |js| ==> DecodeApiRoom(js[i], parseUuid) == Some(rooms[i])
    ensures DecodeApiRooms(js, parseUuid) == Some(rooms)
  {
    var rs := DecodeApiRooms(js, parseUuid);
    assert rs.Some?;
    assert rs.value == rooms;
  }

  /** A JSON list describing rooms element by element decodes to those rooms. */
  lemma DecodeDescribedRooms(js: seq<Json>, rooms: seq<ApiRoom>)
    requires |js| == |rooms|
    requires forall i :: 0 <= i < |rooms| ==> DescribesRoom(js[i], rooms[i])
    ensures DecodeApiRooms(js, Parse) == Some(rooms)
  {
    forall i | 0 <= i < |js|
      ensures DecodeApiRoom(js[i], Parse) == Some(rooms[i])
    {
      DecodeDescribedRoom(js[i], rooms[i]);
    }
    DecodeRoomsElementwise(js, rooms, Parse);
  }

  /** Any JSON that describes a location's metadata decodes to that metadata. */
  lemma DecodeDescribedLocation(j: Json, l: ApiLocation)
    requires DescribesLocation(j, l)
    ensures DecodeApiLocation(j, Parse) == Some(l)
  {
    ParseToString(l.locationId);
    assert UuidField(j.fields, "locationId", Parse) == Some(l.locationId);
    DecodeDescribedRooms(j.fields["rooms"].items, l.rooms);
  }

  /** A location record staged for insertion; equal exactly when all three fields are. */
  datatype DbLocation = DbLocation(locationId: string, description: string, labelText: string)

  /** A room record staged for insertion; equal exactly when all three fields are. */
  datatype DbRoom = DbRoom(roomId: string, description: string, labelText: string)

  /** Equality of staged records is field by field, so one id with two labels gives two
      members of a set of staged locations (and two insert attempts). */
  lemma DbLocationSetKeepsLabelVariants(id: string, d: string, l1: string, l2: string)
    requires l1 != l2
    ensures |{DbLocation(id, d, l1), DbLocation(id, d, l2)}| == 2
  {
  }

  /** The same for staged rooms. */
  lemma DbRoomSetKeepsLabelVariants(id: string, d: string, l1: string, l2: string)
    requires l1 != l2
    ensures |{DbRoom(id, d, l1), DbRoom(id, d, l2)}| == 2
  {
  }
}

=== FILE: base64url.dfy ===
/** Base64 with the URL- and filename-safe alphabet of section 5 of RFC 4648, padding
    omitted as section 3.2 permits (the `URL_SAFE_NO_PAD` engine of the `base64` crate). */
module Base64Url {
  import opened Wrappers
  import opened Bytes

  /** A six-bit value. */
  type Sextet = x: int | 0 <= x < 64

  /** The alphabet: `A`–`Z`, `a`–`z`, `0`–`9`, `-`, `_`. */
  predicate IsAlphabetChar(c: char) {
    ('A' <= c <= 'Z') || ('a' <= c <= 'z') || ('0' <= c <= '9') || c == '-' || c == '_'
  }

  /** The character that stands for a six-bit value. */
  function CharOf(v: Sextet): (c: char)
    ensures IsAlphabetChar(c)
  {
    if v < 26 then ('A' as int + v) as char
    else if v < 52 then ('a' as int + (v - 26)) as char
    else if v < 62 then ('0' as int + (v - 52)) as char
    else if v == 62 then '-'
    else '_'
  }

  /** The six-bit value a character stands for; `None` outside the alphabet. */
  function ValueOf(c: char): (r: Option<Sextet>)
    ensures r.Some? <==> IsAlphabetChar(c)
  {
    if 'A' <= c <= 'Z' then Some(c as int - 'A' as int)
    else if 'a' <= c <= 'z' then Some(c as int - 'a' as int + 26)
    else if '0' <= c <= '9' then Some(c as int - '0' as int + 52)
    else if c == '-' then Some(62)
    else if c == '_' then Some(63)
    else None
  }

  lemma ValueOfCharOf(v: Sextet)
    ensures ValueOf(CharOf(v)) == Some(v)
  {
  }

  lemma CharOfValueOf(c: char)
    requires IsAlphabetChar(c)
    ensures CharOf(ValueOf(c).value) == c
  {
  }

  /** The two, three or four characters for a group of one, two or three bytes; the
      bits past the last byte are zero. */
  function EncodeGroup(bs: seq<Byte>): (r: string)
    requires 1 <= |bs| <= 3
    ensures |r| == |bs| + 1
  {
    var b0 := bs[0];
    if |bs| == 1 then [CharOf(b0 / 4), CharOf((b0 % 4) * 16)]
    else
      var b1 := bs[1];
      if |bs| == 2 then [CharOf(b0 / 4), CharOf((b0 % 4) * 16 + b1 / 16), CharOf((b1 % 16) * 4)]
      else
        var b2 := bs[2];
        [CharOf(b0 / 4), CharOf((b0 % 4) * 16 + b1 / 16), CharOf((b1 % 16) * 4 + b2 / 64), CharOf(b2 % 64)]
  }

  /** `URL_SAFE_NO_PAD.encode`: three bytes to four characters, a final group of one or
      two bytes to two or three characters, and no `=`. */
  function Encode(bs: seq<Byte>): (r: string)
    ensures |r| == (4 * |bs| + 2) / 3
    ensures forall i :: 0 <= i < |r| ==> IsAlphabetChar(r[i])
    decreases |bs|
  {
    if |bs| == 0 then []
    else if |bs| <= 3 then EncodeGroup(bs)
    else EncodeGroup(bs[..3]) + Encode(bs[3..])
  }

  predicate AllInAlphabet(cs: string) {
    forall i :: 0 <= i < |cs| ==> IsAlphabetChar(cs[i])
  }

  /** The three bytes spelled by four six-bit values. */
  function Join(v0: Sextet, v1: Sextet, v2: Sextet, v3: Sextet): (r: seq<Byte>)
    ensures |r| == 3
  {
    [v0 * 4 + v1 / 16, (v1 % 16) * 16 + v2 / 4, (v2 % 4) * 64 + v3]
  }

  /** The bytes of a group of two, three or four characters; `None` for a character
      outside the alphabet or for non-zero bits past the last byte. */
  function DecodeGroup(cs: string): (r: Option<seq<Byte>>)
    requires 2 <= |cs| <= 4
    ensures r.Some? ==> |r.value| == |cs| - 1
  {
    if !AllInAlphabet(cs) then None
    else
      var v0, v1 := ValueOf(cs[0]).value, ValueOf(cs[1]).value;
      var v2 := if |cs| >= 3 then ValueOf(cs[2]).value else 0;
      var v3 := if |cs| == 4 then ValueOf(cs[3]).value else 0;
      var bytes := Join(v0, v1, v2, v3);
      if |cs| == 2 && v1 % 16 != 0 then None
      else if |cs| == 3 && v2 % 4 != 0 then None
      else Some(bytes[..|cs| - 1])
  }

  /** Splitting three bytes into sextets and joining them again is the identity. */
  lemma JoinSplit(b0: Byte, b1: Byte, b2: Byte)
    ensures Join(b0 / 4, (b0 % 4) * 16 + b1 / 16, (b1 % 16) * 4 + b2 / 64, b2 % 64) == [b0, b1, b2]
  {
  }

  /** Joining four sextets and splitting the bytes again is the identity. */
  lemma SplitJoin(v0: Sextet, v1: Sextet, v2: Sextet, v3: Sextet)
    ensures var j := Join(v0, v1, v2, v3);
      && j[0] / 4 == v0
      && (j[0] % 4) * 16 + j[1] / 16 == v1
      && (j[1] % 16) * 4 + j[2] / 64 == v2
      && j[2] % 64 == v3
  {
  }

  /** `URL_SAFE_NO_PAD.decode`: `None` for a stray character, a lone final character or
      non-zero trailing bits. */
  function Decode(s: string): (r: Option<seq<Byte>>)
    decreases |s|
  {
    if |s| == 0 then Some([])
    else if |s| == 1 then None
    else if |s| <= 4 then DecodeGroup(s)
    else match DecodeGroup(s[..4])
      case None => None
      case Some(g) =>
        match Decode(s[4..])
        case None => None
        case Some(rest) => Some(g + rest)
  }

  lemma DecodeEncodeGroup(bs: seq<Byte>)
    requires 1 <= |bs| <= 3
    ensures DecodeGroup(EncodeGroup(bs)) == Some(bs)
  {
    var cs := EncodeGroup(bs);
    var b0: Byte := bs[0];
    var b1: Byte := if |bs| >= 2 then bs[1] else 0;
    var b2: Byte := if |bs| == 3 then bs[2] else 0;
    var v0, v1, v2, v3 := b0 / 4, (b0 % 4) * 16 + b1 / 16, (b1 % 16) * 4 + b2 / 64, b2 % 64;
    ValueOfCharOf(v0);
    ValueOfCharOf(v1);
    ValueOfCharOf(v2);
    ValueOfCharOf(v3);
    JoinSplit(b0, b1, b2);
    assert cs[0] == CharOf(v0) && cs[1] == CharOf(v1);
    if |bs| >= 2 {
      assert cs[2] == CharOf(v2);
    }
    if |bs| == 3 {
      assert cs[3] == CharOf(v3);
    }
    assert AllInAlphabet(cs);
    assert ValueOf(cs[0]).value == v0 && ValueOf(cs[1]).value == v1;
    if |bs| == 1 {
      assert v1 % 16 == 0;
      assert Join(v0, v1, 0, 0)[..1] == bs;
    } else if |bs| == 2 {
      assert ValueOf(cs[2]).value == v2;
      assert v2 % 4 == 0;
      assert Join(v0, v1, v2, 0)[..2] == bs;
    } else {
      assert ValueOf(cs[2]).value == v2 && ValueOf(cs[3]).value == v3;
      assert Join(v0, v1, v2, v3)[..3] == bs;
    }
  }

  lemma EncodeDecodeGroup(cs: string)
    requires 2 <= |cs| <= 4
    requires DecodeGroup(cs).Some?
    ensures EncodeGroup(DecodeGroup(cs).value) == cs
  {
    var v0, v1 := ValueOf(cs[0]).value, ValueOf(cs[1]).value;
    var v2 := if |cs| >= 3 then ValueOf(cs[2]).value else 0;
    var v3 := if |cs| == 4 then ValueOf(cs[3]).value else 0;
    SplitJoin(v0, v1, v2, v3);
    forall i | 0 <= i < |cs|
      ensures CharOf(ValueOf(cs[i]).value) == cs[i]
    {
      CharOfValueOf(cs[i]);
    }
    var bs := DecodeGroup(cs).value;
    var e := EncodeGroup(bs);
    assert e[0] == cs[0] && e[1] == cs[1];
    if |cs| >= 3 {
      assert e[2] == cs[2];
    }
    if |cs| == 4 {
      assert e[3] == cs[3];
    }
  }

  /** Decoding an encoding gives the bytes back. */
  lemma {:induction false} DecodeEncode(bs: seq<Byte>)
    ensures Decode(Encode(bs)) == Some(bs)
    decreases |bs|
  {
    if 1 <= |bs| <= 3 {
      DecodeEncodeGroup(bs);
    } else if |bs| > 3 {
      var g := EncodeGroup(bs[..3]);
      var s := Encode(bs);
      DecodeEncodeGroup(bs[..3]);
      DecodeEncode(bs[3..]);
      assert s[..4] == g;
      assert s[4..] == Encode(bs[3..]);
      assert bs[..3] + bs[3..] == bs;
    }
  }

  /** Every string the decoder accepts is the encoding of what it decodes to: one
      spelling per byte string. */
  lemma {:induction false} EncodeDecode(s: string)
    requires Decode(s).Some?
    ensures Encode(Decode(s).value) == s
    decreases |s|
  {
    if 2 <= |s| <= 4 {
      EncodeDecodeGroup(s);
    } else if |s| > 4 {
      var g := DecodeGroup(s[..4]).value;
      EncodeDecodeGroup(s[..4]);
      EncodeDecode(s[4..]);
      var bs := Decode(s).value;
      assert bs == g + Decode(s[4..]).value;
      assert bs[..3] == g && bs[3..] == Decode(s[4..]).value;
      assert s[..4] + s[4..] == s;
    }
  }

  /** Different byte strings have different encodings. */
  lemma EncodeInjective(a: seq<Byte>, b: seq<Byte>)
    requires Encode(a) == Encode(b)
    ensures a == b
  {
    DecodeEncode(a);
    DecodeEncode(b);
  }
}

=== FILE: bytes.dfy ===
/** Bytes and fixed-width unsigned integers, with their little-endian encodings. */
module Bytes {

  /** One octet. */
  type Byte = x: int | 0 <= x < 256

  /** 256 to the power `n`: the number of values that `n` bytes can hold. */
  function Pow256(n: nat): (r: nat)
    ensures r >= 1
  {
    if n == 0 then 1 else 256 * Pow256(n - 1)
  }

  const U32_LIMIT: nat := 0x1_0000_0000
  const U128_LIMIT: nat := 0x1_0000_0000_0000_0000_0000_0000_0000_0000

  /** Rust's `u32`. */
  type U32 = x: int | 0 <= x < U32_LIMIT

  /** Rust's `u128`. */
  type U128 = x: int | 0 <= x < U128_LIMIT

  /** `to_le_bytes` on an `n`-byte unsigned integer: least significant byte first. */
  function LeBytes(x: nat, n: nat): (r: seq<Byte>)
    ensures |r| == n
    decreases n
  {
    if n == 0 then [] else [x % 256] + LeBytes(x / 256, n - 1)
  }

  /** The integer whose little-endian bytes are `bs`; the partner of `LeBytes`. */
  function FromLe(bs: seq<Byte>): (r: nat)
    ensures r < Pow256(|bs|)
  {
    if |bs| == 0 then 0 else bs[0] + 256 * FromLe(bs[1..])
  }

  /** Reading back the little-endian bytes of a value that fits in `n` bytes yields that value. */
  lemma {:induction false} FromLeLeBytes(x: nat, n: nat)
    requires x < Pow256(n)
    ensures FromLe(LeBytes(x, n)) == x
    decreases n
  {
    if n > 0 {
      assert x / 256 < Pow256(n - 1);
      FromLeLeBytes(x / 256, n - 1);
      assert LeBytes(x, n)[1..] == LeBytes(x / 256, n - 1);
    }
  }

  /** Writing out the value of a byte string of length `n` gives that byte string back. */
  lemma {:induction false} LeBytesFromLe(bs: seq<Byte>)
    ensures LeBytes(FromLe(bs), |bs|) == bs
  {
    if |bs| > 0 {
      LeBytesFromLe(bs[1..]);
      var x := FromLe(bs);
      assert x % 256 == bs[0];
      assert x / 256 == FromLe(bs[1..]);
    }
  }

  /** Different values of the same width have different little-endian encodings. */
  lemma LeBytesInjective(x: nat, y: nat, n: nat)
    requires x < Pow256(n) && y < Pow256(n)
    requires LeBytes(x, n) == LeBytes(y, n)
    ensures x == y
  {
    FromLeLeBytes(x, n);
    FromLeLeBytes(y, n);
  }

  /** The widths used by the source: four bytes hold a `u32`, sixteen a `u128`. */
  lemma Pow256Values()
    ensures Pow256(4) == U32_LIMIT
    ensures Pow256(16) == U128_LIMIT
  {
    assert Pow256(4) == 0x1_0000_0000 by {
      assert Pow256(2) == 65536;
    }
    assert Pow256(8) == 0x1_0000_0000_0000_0000 by {
      assert Pow256(8) == 256 * 256 * 256 * 256 * Pow256(4);
    }
    assert Pow256(12) == 0x1_0000_0000_0000_0000_0000_0000 by {
      assert Pow256(12) == 256 * 256 * 256 * 256 * Pow256(8);
    }
    assert Pow256(16) == 256 * 256 * 256 * 256 * Pow256(12);
  }
}

=== FILE: config.dfy ===
/** The API section of the configuration (`ApiConfig`, `models/config.rs`): a required
    list of endpoints and four settings that fall back to defaults when absent. */
module Config {
  import opened Wrappers
  import opened Json
  import opened Endpoint

  const U16_LIMIT: int := 0x1_0000

  /** Rust's `u16`. */
  type U16 = x: int | 0 <= x < U16_LIMIT

  const DEFAULT_PROTO: string := "https"
  const DEFAULT_HOST: string := "mycscgo.com"
  const DEFAULT_PORT: U16 := 443
  const DEFAULT_USER_AGENT: string := "Hello World"

  datatype ApiConfig = ApiConfig(
    endpoints: seq<RoomMachinesEndpoint>,
    proto: string,
    host: string,
    port: U16,
    userAgent: string)

  /** A string setting with a default: absent means the default, a string is kept, and
      anything else (including `null`) fails. */
  function StrOr(obj: Object, key: string, default: string): (r: Option<string>)
    ensures key !in obj ==> r == Some(default)
    ensures key in obj ==> (r.Some? <==> obj[key].JStr?)
    ensures key in obj && r.Some? ==> obj[key] == JStr(r.value)
  {
    if key !in obj then Some(default)
    else if obj[key].JStr? then Some(obj[key].s)
    else None
  }

  /** The port: absent means 443, an integer that fits `u16` is kept, anything else fails. */
  function PortOr(obj: Object, key: string): (r: Option<U16>)
    ensures key !in obj ==> r == Some(DEFAULT_PORT)
    ensures key in obj ==> (r.Some? <==> obj[key].JInt? && 0 <= obj[key].i < U16_LIMIT)
    ensures key in obj && r.Some? ==> obj[key] == JInt(r.value)
  {
    if key !in obj then Some(DEFAULT_PORT)
    else if obj[key].JInt? && 0 <= obj[key].i < U16_LIMIT then Some(obj[key].i)
    else None
  }

  /** One endpoint, in the form serde gives a two-field tuple struct: a two-element array
      of strings. */
  function DecodeEndpoint(j: Json): (r: Option<RoomMachinesEndpoint>)
    ensures r.Some? <==> j.JArr? && |j.items| == 2 && j.items[0].JStr? && j.items[1].JStr?
    ensures r.Some? ==> j == JArr([JStr(r.value.locationId), JStr(r.value.roomId)])
  {
    if j.JArr? && |j.items| == 2 && j.items[0].JStr? && j.items[1].JStr? then
      Some(New(j.items[0].s, j.items[1].s))
    else None
  }

  /** Every endpoint of the list, in order; fails if any one fails. */
  function DecodeEndpoints(js: seq<Json>): (r: Option<seq<RoomMachinesEndpoint>>)
    ensures r.Some? ==> |r.value| == |js| && forall i :: 0 <= i < |js| ==> DecodeEndpoint(js[i]) == Some(r.value[i])
    ensures (forall i :: 0 <= i < |js| ==> DecodeEndpoint(js[i]).Some?) ==> r.Some?
  {
    if |js| == 0 then Some([])
    else
      var head := DecodeEndpoint(js[0]);
      var rest := DecodeEndpoints(js[1..]);
      if head.Some? && rest.Some? then Some([head.value] + rest.value) else None
  }

  /** The keys the API configuration is read from; the user agent is read from `"ua"`. */
  ghost predicate IsConfigKey(k: string) {
    k == "endpoints" || k == "proto" || k == "host" || k == "port" || k == "ua"
  }

  /** Deserialises the API configuration. `endpoints` has no default. */
  function Decode(obj: Object): (r: Option<ApiConfig>)
    ensures r.Some? ==> "endpoints" in obj && obj["endpoints"].JArr?
    ensures r.Some? ==> |r.value.endpoints| == |obj["endpoints"].items|
    ensures r.Some? && "proto" !in obj ==> r.value.proto == DEFAULT_PROTO
    ensures r.Some? && "host" !in obj ==> r.value.host == DEFAULT_HOST
    ensures r.Some? && "port" !in obj ==> r.value.port == DEFAULT_PORT
    ensures r.Some? && "ua" !in obj ==> r.value.userAgent == DEFAULT_USER_AGENT
    ensures r.Some? ==> DecodeEndpoints(obj["endpoints"].items) == Some(r.value.endpoints)
    ensures r.Some? && "proto" in obj ==> obj["proto"] == JStr(r.value.proto)
    ensures r.Some? && "host" in obj ==> obj["host"] == JStr(r.value.host)
    ensures r.Some? && "port" in obj ==> obj["port"] == JInt(r.value.port)
    ensures r.Some? && "ua" in obj ==> obj["ua"] == JStr(r.value.userAgent)
  {
    var endpoints := if "endpoints" in obj && obj["endpoints"].JArr? then DecodeEndpoints(obj["endpoints"].items) else None;
    var proto := StrOr(obj, "proto", DEFAULT_PROTO);
    var host := StrOr(obj, "host", DEFAULT_HOST);
    var port := PortOr(obj, "port");
    var ua := StrOr(obj, "ua", DEFAULT_USER_AGENT);
    if endpoints.Some? && proto.Some? && host.Some? && port.Some? && ua.Some? then
      Some(ApiConfig(endpoints.value, proto.value, host.value, port.value, ua.value))
    else None
  }

  /** Without an `endpoints` member there is no configuration, whatever else is set. */
  lemma MissingEndpointsFails(obj: Object)
    requires "endpoints" !in obj
    ensures Decode(obj) == None
  {
  }

  /** A configuration holding only its endpoint list keeps the endpoints and takes every
      default. */
  lemma OnlyEndpointsTakesDefaults(obj: Object, es: seq<RoomMachinesEndpoint>)
    requires "endpoints" in obj && DescribesEndpoints(obj["endpoints"], es)
    requires obj.Keys == {"endpoints"}
    ensures Decode(obj) == Some(ApiConfig(es, "https", "mycscgo.com", 443, "Hello World"))
  {
    assert "proto" !in obj && "host" !in obj && "port" !in obj && "ua" !in obj;
    DecodeDescribedConfig(obj, ApiConfig(es, "https", "mycscgo.com", 443, "Hello World"));
  }

  /** `j` lists exactly the endpoints `es`, each as a two-element array of strings. */
  ghost predicate DescribesEndpoints(j: Json, es: seq<RoomMachinesEndpoint>) {
    && j.JArr?
    && |j.items| == |es|
    && forall i :: 0 <= i < |es| ==> j.items[i] == JArr([JStr(es[i].locationId), JStr(es[i].roomId)])
  }

  /** `obj` holds the string setting `v` under `key`, or omits it and `v` is the
      default. */
  ghost predicate DescribesStrSetting(obj: Object, key: string, v: string, default: string) {
    if key in obj then obj[key] == JStr(v) else v == default
  }

  /** `obj` holds the endpoints of `c`, and each other setting of `c` either explicitly
      or by omitting it when it is the default (among any other members). */
  ghost predicate DescribesConfig(obj: Object, c: ApiConfig) {
    && "endpoints" in obj && DescribesEndpoints(obj["endpoints"], c.endpoints)
    && DescribesStrSetting(obj, "proto", c.proto, DEFAULT_PROTO)
    && DescribesStrSetting(obj, "host", c.host, DEFAULT_HOST)
    && (if "port" in obj then obj["port"] == JInt(c.port) else c.port == DEFAULT_PORT)
    && DescribesStrSetting(obj, "ua", c.userAgent, DEFAULT_USER_AGENT)
  }

  /** Any configuration object is read back as the configuration it describes: present
      values, endpoints included, are kept as written, and absent settings are the
      defaults, in any mix. */
  lemma DecodeDescribedConfig(obj: Object, c: ApiConfig)
    requires DescribesConfig(obj, c)
    ensures Decode(obj) == Some(c)
  {
    var es := DecodeEndpoints(obj["endpoints"].items);
    assert es.Some?;
    assert es.value == c.endpoints;
  }

  /** Members other than the five configuration keys play no part; in particular a
      `"user_agent"` member is ignored. */
  lemma DecodeIgnoresOtherKeys(obj: Object, k: string, v: Json)
    requires !IsConfigKey(k)
    ensures Decode(obj[k := v]) == Decode(obj)
  {
    var obj' := obj[k := v];
    assert StrOr(obj', "proto", DEFAULT_PROTO) == StrOr(obj, "proto", DEFAULT_PROTO);
    assert StrOr(obj', "host", DEFAULT_HOST) == StrOr(obj, "host", DEFAULT_HOST);
    assert StrOr(obj', "ua", DEFAULT_USER_AGENT) == StrOr(obj, "ua", DEFAULT_USER_AGENT);
    assert PortOr(obj', "port") == PortOr(obj, "port");
    assert ("endpoints" in obj' <==> "endpoints" in obj) && ("endpoints" in obj ==> obj'["endpoints"] == obj["endpoints"]);
  }
}

=== FILE: endpoint.dfy ===
/** The identity of one polled room (`RoomMachinesEndpoint`, `types.rs`): a location id
    and a room id, and the machine-list URL built from them with the API protocol and
    host fixed when the program is compiled. */
module Endpoint {

  /** The pair `(location_id, room_id)`; construction accepts any two strings. */
  datatype RoomMachinesEndpoint = RoomMachinesEndpoint(locationId: string, roomId: string)

  /** `RoomMachinesEndpoint::new`: the accessors give back its arguments unchanged,
      for any strings. */
  function New(locationId: string, roomId: string): (r: RoomMachinesEndpoint)
    ensures LocationId(r) == locationId && RoomId(r) == roomId
  {
    RoomMachinesEndpoint(locationId, roomId)
  }

  /** `location_id()`. */
  function LocationId(e: RoomMachinesEndpoint): string {
    e.locationId
  }

  /** `room_id()`. */
  function RoomId(e: RoomMachinesEndpoint): string {
    e.roomId
  }

  /** The `API_PROTO` and `API_HOST` values compiled into the program. */
  datatype BuildEnv = BuildEnv(apiProto: string, apiHost: string)

  const MachinesPath: string := "/machines"
  const LocationPath: string := "/api/v1/location/"
  const RoomPath: string := "/room/"

  /** `build_url`: protocol, `://`, host, then the location and room path; no port. */
  function BuildUrl(env: BuildEnv, e: RoomMachinesEndpoint): string {
    env.apiProto + "://" + env.apiHost + LocationPath + e.locationId + RoomPath + e.roomId + MachinesPath
  }

  /** The built URL starts with `API_PROTO://API_HOST`, carries no port, and ends with
      `/machines`; its length is that of its parts. */
  lemma BuildUrlShape(env: BuildEnv, e: RoomMachinesEndpoint)
    ensures var url := BuildUrl(env, e);
      && |url| == |env.apiProto| + 3 + |env.apiHost| + 17 + |e.locationId| + 6 + |e.roomId| + 9
      && url[..|env.apiProto| + 3 + |env.apiHost|] == env.apiProto + "://" + env.apiHost
      && url[|env.apiProto| + 3 + |env.apiHost|..][..|LocationPath|] == LocationPath
      && url[|url| - 9..] == MachinesPath
  {
    var head := env.apiProto + "://" + env.apiHost;
    var rest := LocationPath + e.locationId + RoomPath + e.roomId + MachinesPath;
    assert BuildUrl(env, e) == head + rest;
    assert BuildUrl(env, e) == (head + LocationPath + e.locationId + RoomPath + e.roomId) + MachinesPath;
  }

  /** The ids appear in the built URL verbatim, at fixed offsets after the host. */
  lemma BuildUrlSplicesIdsVerbatim(env: BuildEnv, e: RoomMachinesEndpoint)
    ensures var start := |env.apiProto| + 3 + |env.apiHost| + |LocationPath|;
      && BuildUrl(env, e)[start..start + |e.locationId|] == e.locationId
      && BuildUrl(env, e)[start + |e.locationId| + |RoomPath|..start + |e.locationId| + |RoomPath| + |e.roomId|] == e.roomId
  {
    var start := |env.apiProto| + 3 + |env.apiHost| + |LocationPath|;
    var url := BuildUrl(env, e);
    assert url == (env.apiProto + "://" + env.apiHost + LocationPath) + e.locationId + (RoomPath + e.roomId + MachinesPath);
  }
}

=== FILE: json.dfy ===
/** The JSON documents the remote API and the configuration file are read from, and the
    field readers that serde's derived `Deserialize` applies to one object member. */
module Json {
  import opened Wrappers

  datatype Json =
    | JNull
    | JBool(b: bool)
    | JInt(i: int)
    | JStr(s: string)
    | JArr(items: seq<Json>)
    | JObj(fields: map<string, Json>)

  type Object = map<string, Json>

  const I16_MIN: int := -0x8000
  const I16_MAX: int := 0x7FFF

  /** A required `String` member: present and a string. */
  function Str(obj: Object, key: string): (r: Option<string>)
    ensures r.Some? <==> key in obj && obj[key].JStr?
    ensures r.Some? ==> obj[key] == JStr(r.value)
  {
    if key in obj && obj[key].JStr? then Some(obj[key].s) else None
  }

  /** A required `bool` member. */
  function Bool(obj: Object, key: string): (r: Option<bool>)
    ensures r.Some? <==> key in obj && obj[key].JBool?
    ensures r.Some? ==> obj[key] == JBool(r.value)
  {
    if key in obj && obj[key].JBool? then Some(obj[key].b) else None
  }

  /** A required `i16` member: an integer within the range of `i16`. */
  function I16(obj: Object, key: string): (r: Option<int>)
    ensures r.Some? <==> key in obj && obj[key].JInt? && I16_MIN <= obj[key].i <= I16_MAX
    ensures r.Some? ==> obj[key] == JInt(r.value)
  {
    if key in obj && obj[key].JInt? && I16_MIN <= obj[key].i <= I16_MAX then Some(obj[key].i) else None
  }

  /** An `Option<String>` member: absent or `null` reads as `None`. The outer `Option`
      is the failure of the read. */
  function OptStr(obj: Object, key: string): (r: Option<Option<string>>)
    ensures r.None? <==> key in obj && !obj[key].JNull? && !obj[key].JStr?
    ensures r == Some(None) <==> key !in obj || obj[key].JNull?
  {
    if key !in obj || obj[key].JNull? then Some(None)
    else if obj[key].JStr? then Some(Some(obj[key].s))
    else None
  }

  /** An `Option<i16>` member: absent or `null` reads as `None`. */
  function OptI16(obj: Object, key: string): (r: Option<Option<int>>)
    ensures r == Some(None) <==> key !in obj || obj[key].JNull?
    ensures r.Some? && r.value.Some? ==> obj[key] == JInt(r.value.value) && I16_MIN <= r.value.value <= I16_MAX
  {
    if key !in obj || obj[key].JNull? then Some(None)
    else if obj[key].JInt? && I16_MIN <= obj[key].i <= I16_MAX then Some(Some(obj[key].i))
    else None
  }
}

=== FILE: migration.dfy ===
/** Reading the migration history table for the migration runner (`db.rs`): one applied
    migration per row, four typed columns checked in order, and the whole read failing
    on the first bad row. */
module Migration {
  import opened Wrappers
  import opened Sql

  const I32_LIMIT: int := 0x1_0000_0000
  const I32_HALF: int := 0x8000_0000
  const U64_LIMIT: int := 0x1_0000_0000_0000_0000
  const I64_HALF: int := 0x8000_0000_0000_0000

  /** Rust's `i64`, the type `as_int` reads. */
  predicate IsI64(x: int) {
    -I64_HALF <= x < I64_HALF
  }

  /** `x as i32`: keep the low 32 bits and read them as two's complement. */
  function AsI32(x: int): (r: int)
    ensures -I32_HALF <= r < I32_HALF
    ensures (r - x) % I32_LIMIT == 0
    ensures -I32_HALF <= x < I32_HALF ==> r == x
  {
    var low := x % I32_LIMIT;
    if low >= I32_HALF then low - I32_LIMIT else low
  }

  /** `x as u64` for an `i64`: reinterpret the 64 bits as unsigned. */
  function AsU64(x: int): (r: int)
    ensures 0 <= r < U64_LIMIT
    ensures (r - x) % U64_LIMIT == 0
    ensures 0 <= x < U64_LIMIT ==> r == x
    ensures IsI64(x) && x < 0 ==> r == x + U64_LIMIT
  {
    x % U64_LIMIT
  }

  /** `Migration::applied(version, name, applied_on, checksum)`; the date type is left
      abstract. */
  datatype Migration<Time> = Applied(version: int, name: string, appliedOn: Time, checksum: int)

  /** The message for a missing column. */
  function IndexMessage(i: nat): string {
    if i == 0 then "Failed to get index 0"
    else if i == 1 then "Failed to get index 1"
    else if i == 2 then "Failed to get index 2"
    else "Failed to get index 3"
  }

  const ValueMessage: string := "Failed to get value"
  const ConvertMessage: string := "Failed to convert value"

  /** Column `i` of the row is present and has the type the decoder wants there; the
      timestamp column must also convert to a date. */
  predicate ColumnOk<Time>(row: Row, i: nat, fromUnix: int -> Option<Time>)
    requires i < 4
  {
    && i < |row|
    && (i == 0 || i == 3 ==> row[i].Int?)
    && (i == 1 ==> row[i].Text?)
    && (i == 2 ==> row[i].Timestamp? && fromUnix(row[i].unixSeconds).Some?)
  }

  /** The error the checks of column `i` give when they fail; `missingMessage` is the
      message for a missing column. */
  function ColumnError<Time>(row: Row, i: nat, fromUnix: int -> Option<Time>, missingMessage: string): DbError
    requires i < 4
  {
    if i >= |row| then Unimplemented(missingMessage)
    else if i == 2 && row[i].Timestamp? then Unimplemented(ConvertMessage)
    else Unimplemented(ValueMessage)
  }

  /** The decoder of `migration_from_row`, with the message for a missing fourth column
      as a parameter: the source and the corrected model differ only there. */
  function DecodeRow<Time>(row: Row, fromUnix: int -> Option<Time>, missing3: string): (r: Result<Migration<Time>, DbError>)
    ensures r.Ok? <==> forall i :: 0 <= i < 4 ==> ColumnOk(row, i, fromUnix)
    ensures r.Ok? ==> && |row| >= 4 && row[0].Int? && row[1].Text? && row[2].Timestamp? && row[3].Int?
                      && r.value.version == AsI32(row[0].i)
                      && r.value.name == row[1].s
                      && fromUnix(row[2].unixSeconds) == Some(r.value.appliedOn)
                      && r.value.checksum == AsU64(row[3].i)
    ensures |row| == 3 && ColumnOk(row, 0, fromUnix) && ColumnOk(row, 1, fromUnix) && ColumnOk(row, 2, fromUnix)
            ==> r == Err(Unimplemented(missing3))
  {
    assert (forall i :: 0 <= i < 4 ==> ColumnOk(row, i, fromUnix)) ==>
      && ColumnOk(row, 0, fromUnix) && ColumnOk(row, 1, fromUnix)
      && ColumnOk(row, 2, fromUnix) && ColumnOk(row, 3, fromUnix);
    match GetByIndex(row, 0)
    case None => Err(Unimplemented(IndexMessage(0)))
    case Some(c0) =>
      match AsInt(c0)
      case None => Err(Unimplemented(ValueMessage))
      case Some(version) =>
        match GetByIndex(row, 1)
        case None => Err(Unimplemented(IndexMessage(1)))
        case Some(c1) =>
          match AsText(c1)
          case None => Err(Unimplemented(ValueMessage))
          case Some(name) =>
            match GetByIndex(row, 2)
            case None => Err(Unimplemented(IndexMessage(2)))
            case Some(c2) =>
              match AsTimestamp(c2)
              case None => Err(Unimplemented(ValueMessage))
              case Some(secs) =>
                match fromUnix(secs)
                case None => Err(Unimplemented(ConvertMessage))
                case Some(appliedOn) =>
                  match GetByIndex(row, 3)
                  case None => Err(Unimplemented(missing3))
                  case Some(c3) =>
                    match AsInt(c3)
                    case None => Err(Unimplemented(ValueMessage))
                    case Some(checksum) => Ok(Applied(AsI32(version), name, appliedOn, AsU64(checksum)))
  }

  /** `migration_from_row` as written: a missing fourth column is reported with the
      message for column 0. */
  function MigrationFromRowAsWritten<Time>(row: Row, fromUnix: int -> Option<Time>): (r: Result<Migration<Time>, DbError>)
    ensures r == MigrationFromRow(row, fromUnix) || (|row| == 3 && r == Err(Unimplemented(IndexMessage(0))))
    ensures r.Ok? <==> MigrationFromRow(row, fromUnix).Ok?
  {
    DecodeRow(row, fromUnix, "Failed to get index 0")
  }

  /** `migration_from_row` with each missing column reported under its own index.
      It succeeds exactly when all four columns are present and well typed, and then
      holds their values, the integers truncated as the casts do. */
  function MigrationFromRow<Time>(row: Row, fromUnix: int -> Option<Time>): (r: Result<Migration<Time>, DbError>)
    ensures r.Ok? <==> forall i :: 0 <= i < 4 ==> ColumnOk(row, i, fromUnix)
    ensures r.Ok? ==> && |row| >= 4 && row[0].Int? && row[1].Text? && row[2].Timestamp? && row[3].Int?
                      && r.value.version == AsI32(row[0].i)
                      && r.value.name == row[1].s
                      && fromUnix(row[2].unixSeconds) == Some(r.value.appliedOn)
                      && r.value.checksum == AsU64(row[3].i)
  {
    DecodeRow(row, fromUnix, IndexMessage(3))
  }

  /** The checks run in column order and the first failing one decides the error: the
      columns after it are never looked at. */
  lemma FirstFailingColumnDecides<Time>(row: Row, fromUnix: int -> Option<Time>, k: nat)
    requires k < 4
    requires forall i :: 0 <= i < k ==> ColumnOk(row, i, fromUnix)
    requires !ColumnOk(row, k, fromUnix)
    ensures MigrationFromRow(row, fromUnix) == Err(ColumnError(row, k, fromUnix, IndexMessage(k)))
  {
    if k > 0 {
      assert ColumnOk(row, 0, fromUnix);
    }
    if k > 1 {
      assert ColumnOk(row, 1, fromUnix);
    }
    if k > 2 {
      assert ColumnOk(row, 2, fromUnix);
    }
  }

  /** The same order as written; only the message for a missing fourth column differs. */
  lemma AsWrittenFirstFailingColumnDecides<Time>(row: Row, fromUnix: int -> Option<Time>, k: nat)
    requires k < 4
    requires forall i :: 0 <= i < k ==> ColumnOk(row, i, fromUnix)
    requires !ColumnOk(row, k, fromUnix)
    ensures MigrationFromRowAsWritten(row, fromUnix)
      == Err(ColumnError(row, k, fromUnix, if k == 3 then IndexMessage(0) else IndexMessage(k)))
  {
    if k > 0 {
      assert ColumnOk(row, 0, fromUnix);
    }
    if k > 1 {
      assert ColumnOk(row, 1, fromUnix);
    }
    if k > 2 {
      assert ColumnOk(row, 2, fromUnix);
    }
  }

  /** As written, a row missing only its fourth column gets the error of a row missing
      its first, though its first column is present and read. */
  lemma AsWrittenMislabelsMissingChecksum<Time>(version: int, name: string, secs: int, fromUnix: int -> Option<Time>)
    requires fromUnix(secs).Some?
    ensures var row := [Int(version), Text(name), Timestamp(secs)];
      && MigrationFromRowAsWritten(row, fromUnix) == MigrationFromRowAsWritten([], fromUnix)
      && MigrationFromRow(row, fromUnix) != MigrationFromRow([], fromUnix)
  {
    var row := [Int(version), Text(name), Timestamp(secs)];
    FirstFailingColumnDecides(row, fromUnix, 3);
    FirstFailingColumnDecides([], fromUnix, 0);
  }

  /** With the corrected messages, a missing-column error names the first missing column. */
  lemma MissingColumnErrorNamesColumn<Time>(row: Row, fromUnix: int -> Option<Time>, k: nat)
    requires k < 4
    requires MigrationFromRow(row, fromUnix) == Err(Unimplemented(IndexMessage(k)))
    ensures |row| == k
    ensures forall i :: 0 <= i < k ==> ColumnOk(row, i, fromUnix)
  {
    var j :| 0 <= j < 4 && !ColumnOk(row, j, fromUnix) && forall i :: 0 <= i < j ==> ColumnOk(row, i, fromUnix)
    by {
      assert !ColumnOk(row, 0, fromUnix) || !ColumnOk(row, 1, fromUnix) || !ColumnOk(row, 2, fromUnix) || !ColumnOk(row, 3, fromUnix);
    }
    FirstFailingColumnDecides(row, fromUnix, j);
  }

  /** `AsyncQuery::query`: one migration per row in row order, or the error of the first
      row that fails; `selected` is the outcome of the `SELECT` itself. Rows are decoded
      by `migration_from_row` as written. */
  method Query<Time>(selected: Result<seq<Row>, DbError>, fromUnix: int -> Option<Time>)
    returns (r: Result<seq<Migration<Time>>, DbError>)
    ensures selected.Err? ==> r == Err(selected.error)
    ensures selected.Ok? ==>
      (r.Ok? <==> forall i :: 0 <= i < |selected.value| ==> MigrationFromRowAsWritten(selected.value[i], fromUnix).Ok?)
    ensures selected.Ok? && r.Ok? ==>
      (&& |r.value| == |selected.value|
       && forall i :: 0 <= i < |r.value| ==> MigrationFromRowAsWritten(selected.value[i], fromUnix) == Ok(r.value[i]))
    ensures selected.Ok? && r.Err? ==>
      (exists k :: && 0 <= k < |selected.value|
                   && (forall i :: 0 <= i < k ==> MigrationFromRowAsWritten(selected.value[i], fromUnix).Ok?)
                   && MigrationFromRowAsWritten(selected.value[k], fromUnix) == Err(r.error))
  {
    if selected.Err? {
      return Err(selected.error);
    }
    var rows := selected.value;
    var migrations: seq<Migration<Time>> := [];
    var k := 0;
    while k < |rows|
      invariant 0 <= k <= |rows|
      invariant |migrations| == k
      invariant forall i :: 0 <= i < k ==> MigrationFromRowAsWritten(rows[i], fromUnix) == Ok(migrations[i])
    {
      var m := MigrationFromRowAsWritten(rows[k], fromUnix);
      if m.Err? {
        return Err(m.error);
      }
      migrations := migrations + [m.value];
      k := k + 1;
    }
    return Ok(migrations);
  }
}

=== FILE: pep.dfy ===
/** The physical endpoint identifier (`PhysicalEndpointId::calculate_pep`): a 128-bit
    digest of a fixed byte layout, written as unpadded URL-safe base64. The digest
    function (xxh3_128) is a parameter: nothing here depends on its internals. */
module Pep {
  import opened Wrappers
  import opened Bytes
  import Utf8
  import Base64Url
  import opened Uuid

  datatype PhysicalEndpointId = PhysicalEndpointId(
    stickerNumber: U32,
    machineId: Uuid,
    roomId: string,
    locationId: Uuid)

  /** The error type of `calculate_pep`'s `Result`; no path produces it. */
  datatype Report = Report(message: string)

  /** The hashed bytes: the sticker number as four little-endian bytes, the machine
      UUID, the UTF-8 room id, then the location UUID. */
  function Preimage(p: PhysicalEndpointId): (r: seq<Byte>)
    ensures |r| == 36 + |Utf8.Encode(p.roomId)|
    ensures r[0] == p.stickerNumber % 256
    ensures FromLe(r[..4]) == p.stickerNumber
    ensures r[4..20] == p.machineId
    ensures Utf8.Decode(r[20..|r| - 16]) == Some(p.roomId)
    ensures r[|r| - 16..] == p.locationId
  {
    var sticker := LeBytes(p.stickerNumber, 4);
    var room := Utf8.Encode(p.roomId);
    var r := sticker + p.machineId + room + p.locationId;
    Pow256Values();
    FromLeLeBytes(p.stickerNumber, 4);
    assert r[..4] == sticker;
    assert r[4..20] == p.machineId;
    assert r[20..|r| - 16] == room;
    Utf8.DecodeEncode(p.roomId);
    r
  }

  /** Cuts a preimage back into its four parts: fixed widths at both ends leave the
      room id in the middle. */
  function Split(bs: seq<Byte>): (r: Option<PhysicalEndpointId>)
  {
    if |bs| < 36 then None
    else match Utf8.Decode(bs[20..|bs| - 16])
      case None => None
      case Some(room) =>
        Pow256Values();
        Some(PhysicalEndpointId(FromLe(bs[..4]), bs[4..20], room, bs[|bs| - 16..]))
  }

  /** The layout loses nothing: splitting a preimage recovers the identifier's fields. */
  lemma SplitPreimage(p: PhysicalEndpointId)
    ensures Split(Preimage(p)) == Some(p)
  {
  }

  /** Everything the splitter accepts is the preimage of what it returns. */
  lemma PreimageSplit(bs: seq<Byte>)
    requires Split(bs).Some?
    ensures Preimage(Split(bs).value) == bs
  {
    var p := Split(bs).value;
    LeBytesFromLe(bs[..4]);
    Utf8.EncodeDecode(bs[20..|bs| - 16]);
    assert bs == bs[..4] + bs[4..20] + bs[20..|bs| - 16] + bs[|bs| - 16..];
  }

  /** Distinct identifiers have distinct preimages. */
  lemma PreimageInjective(p: PhysicalEndpointId, q: PhysicalEndpointId)
    requires Preimage(p) == Preimage(q)
    ensures p == q
  {
    SplitPreimage(p);
    SplitPreimage(q);
  }

  /** The 16 little-endian bytes of the digest of the preimage. */
  function Digest(p: PhysicalEndpointId, hash: seq<Byte> -> U128): (r: seq<Byte>)
    ensures |r| == 16
    ensures FromLe(r) == hash(Preimage(p))
  {
    Pow256Values();
    FromLeLeBytes(hash(Preimage(p)), 16);
    LeBytes(hash(Preimage(p)), 16)
  }

  /** The base64url text of 16 bytes: 22 alphabet characters, no `=`, decoding back to
      the bytes. */
  lemma SixteenBytesEncode(d: seq<Byte>)
    requires |d| == 16
    ensures |Base64Url.Encode(d)| == 22
    ensures '=' !in Base64Url.Encode(d)
    ensures Base64Url.Decode(Base64Url.Encode(d)) == Some(d)
  {
    Base64Url.DecodeEncode(d);
    assert !Base64Url.IsAlphabetChar('=');
  }

  /** `calculate_pep`: always `Ok`, 22 characters of the URL-safe alphabet, no `=`, and
      decoding it gives back the 16 little-endian digest bytes. */
  function CalculatePep(p: PhysicalEndpointId, hash: seq<Byte> -> U128): (r: Result<string, Report>)
    ensures r.Ok?
    ensures |r.value| == 22
    ensures forall i :: 0 <= i < |r.value| ==> Base64Url.IsAlphabetChar(r.value[i])
    ensures '=' !in r.value
    ensures Base64Url.Decode(r.value) == Some(Digest(p, hash))
    ensures FromLe(Base64Url.Decode(r.value).value) == hash(Preimage(p))
  {
    var d := Digest(p, hash);
    var s := Base64Url.Encode(d);
    SixteenBytesEncode(d);
    Ok(s)
  }

  /** Two identifiers get the same PEP exactly when the hash gives their preimages the
      same digest: the encoding adds no collisions of its own. */
  lemma SamePepIffSameDigest(p: PhysicalEndpointId, q: PhysicalEndpointId, hash: seq<Byte> -> U128)
    ensures CalculatePep(p, hash) == CalculatePep(q, hash) <==> hash(Preimage(p)) == hash(Preimage(q))
  {
    if CalculatePep(p, hash) == CalculatePep(q, hash) {
      Base64Url.EncodeInjective(Digest(p, hash), Digest(q, hash));
      Pow256Values();
      LeBytesInjective(hash(Preimage(p)), hash(Preimage(q)), 16);
    }
  }

  /** A PEP collision between different identifiers is a collision of the hash on
      different byte strings. */
  lemma CollisionIsHashCollision(p: PhysicalEndpointId, q: PhysicalEndpointId, hash: seq<Byte> -> U128)
    ensures p != q && CalculatePep(p, hash) == CalculatePep(q, hash)
            ==> Preimage(p) != Preimage(q) && hash(Preimage(p)) == hash(Preimage(q))
  {
    SamePepIffSameDigest(p, q, hash);
    if Preimage(p) == Preimage(q) {
      PreimageInjective(p, q);
    }
  }
}

=== FILE: precheck.dfy ===
/** The startup reconciliation (`db_precheck`, `logic/db.rs`): the locations and rooms
    named by the configured endpoints are compared with those already stored, every
    configured location's metadata is requested once, and the missing records found in
    the replies are staged and inserted. The metadata reply is a function of the
    location id (`None` for a failed send or a dropped reply channel); the store is the
    rows its `SELECT`s return and the outcome of each insert. */
module Precheck {
  import opened Wrappers
  import opened Uuid
  import opened Endpoint
  import opened Api
  import opened Sql

  const LOCATIONS_QUERY: string := "SELECT location_id FROM locations"
  const ROOMS_QUERY: string := "SELECT room_id FROM rooms"
  const INSERT_LOCATION_QUERY: string :=
    "INSERT INTO locations(location_id, description, label, timezone) VALUES ($1, $2, $3, 'UTC')"
  const INSERT_ROOM_QUERY: string :=
    "INSERT INTO rooms(room_id, description, label) VALUES ($1, $2, $3)"

  const NoColumnMessage: string := "Failed to get row by index 0"
  const NotTextMessage: string := "Failed to convert to text"

  /** The errors `db_precheck` returns: a failed `SELECT`, or a row it cannot read. */
  datatype PrecheckError = Db(error: DbError) | Report(message: string)

  /** The metadata reply for a location id, or `None` when asking for it failed. */
  type Fetch = string -> Option<ApiLocation>

  // ----- Configured, stored and missing ids -----

  /** Every location id named by an endpoint. */
  function ConfiguredLocations(endpoints: seq<RoomMachinesEndpoint>): set<string> {
    set e | e in endpoints :: e.locationId
  }

  /** Every room id named by an endpoint. */
  function ConfiguredRooms(endpoints: seq<RoomMachinesEndpoint>): set<string> {
    set e | e in endpoints :: e.roomId
  }

  /** Builds both configured sets in one pass over the endpoints, as the source does. */
  method CollectConfigured(endpoints: seq<RoomMachinesEndpoint>) returns (locations: set<string>, rooms: set<string>)
    ensures forall l :: l in locations <==> exists i :: 0 <= i < |endpoints| && endpoints[i].locationId == l
    ensures forall r :: r in rooms <==> exists i :: 0 <= i < |endpoints| && endpoints[i].roomId == r
    ensures locations == ConfiguredLocations(endpoints) && rooms == ConfiguredRooms(endpoints)
  {
    locations, rooms := {}, {};
    var k := 0;
    while k < |endpoints|
      invariant 0 <= k <= |endpoints|
      invariant locations == ConfiguredLocations(endpoints[..k])
      invariant rooms == ConfiguredRooms(endpoints[..k])
    {
      assert endpoints[..k + 1] == endpoints[..k] + [endpoints[k]];
      locations := locations + {endpoints[k].locationId};
      rooms := rooms + {endpoints[k].roomId};
      k := k + 1;
    }
    assert endpoints[..k] == endpoints;
  }

  /** The ids configured but not stored. */
  function Missing(configured: set<string>, stored: set<string>): (m: set<string>)
    ensures m <= configured
    ensures m !! stored
    ensures forall x :: x in configured && x !in stored ==> x in m
  {
    configured - stored
  }

  /** Column 0 of the row is present and text. */
  predicate FirstColumnText(row: Row) {
    |row| > 0 && row[0].Text?
  }

  /** The error for a row whose column 0 is missing or not text. */
  function RowError(row: Row): PrecheckError {
    if |row| == 0 then Report(NoColumnMessage) else Report(NotTextMessage)
  }

  /** `e` is the error of the first row whose column 0 is missing or not text. */
  ghost predicate FirstBadRowError(rows: seq<Row>, e: PrecheckError) {
    exists k :: && 0 <= k < |rows|
                && (forall i :: 0 <= i < k ==> FirstColumnText(rows[i]))
                && !FirstColumnText(rows[k])
                && e == RowError(rows[k])
  }

  /** At most one error is the first bad row's error. */
  lemma FirstBadRowErrorUnique(rows: seq<Row>, e: PrecheckError, f: PrecheckError)
    requires FirstBadRowError(rows, e) && FirstBadRowError(rows, f)
    ensures e == f
  {
    var k :| && 0 <= k < |rows|
             && (forall i :: 0 <= i < k ==> FirstColumnText(rows[i]))
             && !FirstColumnText(rows[k])
             && e == RowError(rows[k]);
    var j :| && 0 <= j < |rows|
             && (forall i :: 0 <= i < j ==> FirstColumnText(rows[i]))
             && !FirstColumnText(rows[j])
             && f == RowError(rows[j]);
    if k < j {
      assert false;
    } else if j < k {
      assert false;
    }
  }

  /** The texts in column 0 of the rows. */
  function TextsOf(rows: seq<Row>): set<string>
  {
    set i | 0 <= i < |rows| && FirstColumnText(rows[i]) :: rows[i][0].s
  }

  /** `get_query_as_hashset`: the set of column-0 texts, or the error of the first row
      whose column 0 is missing or not text. */
  method QueryAsSet(selected: Result<seq<Row>, DbError>) returns (r: Result<set<string>, PrecheckError>)
    ensures selected.Err? ==> r == Err(Db(selected.error))
    ensures selected.Ok? ==> (r.Ok? <==> forall i :: 0 <= i < |selected.value| ==> FirstColumnText(selected.value[i]))
    ensures r.Ok? ==> selected.Ok? && r.value == TextsOf(selected.value)
    ensures selected.Ok? && r.Err? ==> FirstBadRowError(selected.value, r.error)
  {
    if selected.Err? {
      return Err(Db(selected.error));
    }
    var rows := selected.value;
    var texts: set<string> := {};
    var k := 0;
    while k < |rows|
      invariant 0 <= k <= |rows|
      invariant forall i :: 0 <= i < k ==> FirstColumnText(rows[i])
      invariant texts == TextsOf(rows[..k])
    {
      var row := rows[k];
      match GetByIndex(row, 0)
      case None =>
        return Err(Report(NoColumnMessage));
      case Some(v) =>
        match AsText(v)
        case None =>
          return Err(Report(NotTextMessage));
        case Some(s) =>
          assert rows[..k + 1] == rows[..k] + [row];
          texts := texts + {s};
          k := k + 1;
    }
    assert rows[..k] == rows;
    return Ok(texts);
  }
}

module PrecheckStaging {
  import opened Wrappers
  import opened Uuid
  import opened Api
  import opened Sql
  import opened Precheck

  // ----- Staging from the metadata replies -----

  /** The location record built from a metadata reply; its id is the reply's UUID in
      canonical text form. */
  function DbLocationOf(reply: ApiLocation): DbLocation {
    DbLocation(ToString(reply.locationId), reply.description, reply.labelText)
  }

  /** The stored location id is a UUID text that parses back to the reply's UUID. */
  lemma DbLocationIdParsesBack(reply: ApiLocation)
    ensures Parse(DbLocationOf(reply).locationId) == Some(reply.locationId)
  {
    ParseToString(reply.locationId);
  }

  /** The room record built from a room of a metadata reply. */
  function DbRoomOf(room: ApiRoom): DbRoom {
    DbRoom(room.roomId, room.description, room.labelText)
  }

  /** What asking for location `l` contributes to the staged locations. */
  function LocationStage(l: string, missingLocations: set<string>, fetch: Fetch): set<DbLocation> {
    match fetch(l)
    case None => {}
    case Some(reply) => if ToString(reply.locationId) in missingLocations then {DbLocationOf(reply)} else {}
  }

  /** What asking for location `l` contributes to the staged rooms. */
  function RoomStage(l: string, missingRooms: set<string>, fetch: Fetch): set<DbRoom> {
    match fetch(l)
    case None => {}
    case Some(reply) =>
      set i | 0 <= i < |reply.rooms| && reply.rooms[i].roomId in missingRooms :: DbRoomOf(reply.rooms[i])
  }

  /** The locations staged after asking for every location in `asked`. */
  function StagedLocations(asked: set<string>, missingLocations: set<string>, fetch: Fetch): set<DbLocation> {
    set l, d | l in asked && d in LocationStage(l, missingLocations, fetch) :: d
  }

  /** The rooms staged after asking for every location in `asked`. */
  function StagedRooms(asked: set<string>, missingRooms: set<string>, fetch: Fetch): set<DbRoom> {
    set l, d | l in asked && d in RoomStage(l, missingRooms, fetch) :: d
  }

  /** The elements of a sequence. */
  function Elems<T>(s: seq<T>): set<T> {
    set x | x in s
  }

  /** A sequence without repetitions. */
  predicate Distinct<T(==)>(s: seq<T>) {
    forall i, j :: 0 <= i < j < |s| ==> s[i] != s[j]
  }

  /** Lists a set in some order, each element once (the source iterates hash sets, whose
      order is unspecified). */
  method Enumerate<T>(s: set<T>) returns (order: seq<T>)
    ensures Elems(order) == s
    ensures |order| == |s|
    ensures Distinct(order)
  {
    order := [];
    var remaining := s;
    while remaining != {}
      invariant remaining <= s
      invariant Elems(order) !! remaining
      invariant Elems(order) + remaining == s
      invariant |order| + |remaining| == |s|
      invariant Distinct(order)
      decreases |remaining|
    {
      var x :| x in remaining;
      assert x !in Elems(order);
      order := order + [x];
      remaining := remaining - {x};
    }
  }

  lemma StagedLocationsStep(asked: set<string>, l: string, missingLocations: set<string>, fetch: Fetch)
    ensures StagedLocations(asked + {l}, missingLocations, fetch)
         == StagedLocations(asked, missingLocations, fetch) + LocationStage(l, missingLocations, fetch)
  {
  }

  lemma StagedRoomsStep(asked: set<string>, l: string, missingRooms: set<string>, fetch: Fetch)
    ensures StagedRooms(asked + {l}, missingRooms, fetch)
         == StagedRooms(asked, missingRooms, fetch) + RoomStage(l, missingRooms, fetch)
  {
  }

  /** Asks for every configured location once and stages the missing records found in
      the replies; a location whose reply fails is skipped. */
  method StageAll(configured: set<string>, missingLocations: set<string>, missingRooms: set<string>, fetch: Fetch)
    returns (requests: seq<string>, locations: set<DbLocation>, rooms: set<DbRoom>)
    ensures Elems(requests) == configured && |requests| == |configured| && Distinct(requests)
    ensures locations == StagedLocations(configured, missingLocations, fetch)
    ensures rooms == StagedRooms(configured, missingRooms, fetch)
  {
    requests := Enumerate(configured);
    locations, rooms := {}, {};
    var k := 0;
    while k < |requests|
      invariant 0 <= k <= |requests|
      invariant locations == StagedLocations(Elems(requests[..k]), missingLocations, fetch)
      invariant rooms == StagedRooms(Elems(requests[..k]), missingRooms, fetch)
    {
      var l := requests[k];
      assert requests[..k + 1] == requests[..k] + [l];
      assert Elems(requests[..k + 1]) == Elems(requests[..k]) + {l};
      StagedLocationsStep(Elems(requests[..k]), l, missingLocations, fetch);
      StagedRoomsStep(Elems(requests[..k]), l, missingRooms, fetch);
      locations := locations + LocationStage(l, missingLocations, fetch);
      rooms := rooms + RoomStage(l, missingRooms, fetch);
      k := k + 1;
    }
    assert requests[..k] == requests;
  }
}

module PrecheckInsert {
  import opened Wrappers
  import opened Api
  import opened Sql
  import opened Precheck
  import opened PrecheckStaging

  /** A parameterised statement: the query text and its positional parameters. */
  datatype Statement = Statement(query: string, params: seq<SqlValue>)

  /** The insert for a staged location. The description is sent as SQL NULL. */
  function LocationInsert(d: DbLocation): Statement {
    Statement(INSERT_LOCATION_QUERY, [Text(d.locationId), Null, Text(d.labelText)])
  }

  /** The insert for a staged room. */
  function RoomInsert(d: DbRoom): Statement {
    Statement(INSERT_ROOM_QUERY, [Text(d.roomId), Text(d.description), Text(d.labelText)])
  }

  /** Two locations get the same insert exactly when their id and label agree: the
      description never reaches the store. */
  lemma LocationInsertIgnoresDescription(d1: DbLocation, d2: DbLocation)
    ensures LocationInsert(d1) == LocationInsert(d2)
        <==> d1.locationId == d2.locationId && d1.labelText == d2.labelText
  {
    if LocationInsert(d1) == LocationInsert(d2) {
      assert LocationInsert(d1).params[0] == LocationInsert(d2).params[0];
      assert LocationInsert(d1).params[2] == LocationInsert(d2).params[2];
    }
  }

  /** Every field of a room reaches the store. */
  lemma RoomInsertInjective(d1: DbRoom, d2: DbRoom)
    ensures RoomInsert(d1) == RoomInsert(d2) <==> d1 == d2
  {
    if RoomInsert(d1) == RoomInsert(d2) {
      assert RoomInsert(d1).params[0] == RoomInsert(d2).params[0];
      assert RoomInsert(d1).params[1] == RoomInsert(d2).params[1];
      assert RoomInsert(d1).params[2] == RoomInsert(d2).params[2];
    }
  }

  /** Runs the insert of every item once, in some order; a failed insert is only
      recorded and the remaining inserts still run. `succeeds` gives each statement's
      outcome. */
  method RunInserts<T>(items: set<T>, insert: T -> Statement, succeeds: Statement -> bool)
    returns (order: seq<T>, executed: seq<Statement>, failed: set<T>)
    ensures Elems(order) == items && |order| == |items| && Distinct(order)
    ensures |executed| == |order|
    ensures forall i :: 0 <= i < |order| ==> executed[i] == insert(order[i])
    ensures failed == set d | d in items && !succeeds(insert(d))
  {
    order := Enumerate(items);
    executed, failed := [], {};
    var k := 0;
    while k < |order|
      invariant 0 <= k <= |order|
      invariant |executed| == k
      invariant forall i :: 0 <= i < k ==> executed[i] == insert(order[i])
      invariant failed == set d | d in Elems(order[..k]) && !succeeds(insert(d))
    {
      var d := order[k];
      assert order[..k + 1] == order[..k] + [d];
      assert Elems(order[..k + 1]) == Elems(order[..k]) + {d};
      var statement := insert(d);
      executed := executed + [statement];
      if !succeeds(statement) {
        failed := failed + {d};
      }
      k := k + 1;
    }
    assert order[..k] == order;
  }
}

module PrecheckRun {
  import opened Wrappers
  import opened Uuid
  import opened Endpoint
  import opened Api
  import opened Sql
  import opened Precheck
  import opened PrecheckStaging
  import opened PrecheckInsert

  /** What one reconciliation did: the locations asked for, in order, the staged records,
      the inserts executed, in order, and the records whose insert failed. */
  datatype Outcome = Outcome(
    requests: seq<string>,
    stagedLocations: set<DbLocation>,
    stagedRooms: set<DbRoom>,
    executed: seq<Statement>,
    failedLocations: set<DbLocation>,
    failedRooms: set<DbRoom>)

  /** The `SELECT` succeeded and every row has a text column 0. */
  predicate QueryReadable(selected: Result<seq<Row>, DbError>) {
    selected.Ok? && forall i :: 0 <= i < |selected.value| ==> FirstColumnText(selected.value[i])
  }

  /** The outcome the reconciliation promises, given what is configured, what is stored,
      the metadata replies and the insert outcomes. */
  ghost predicate Reconciles(
    endpoints: seq<RoomMachinesEndpoint>, storedLocations: set<string>, storedRooms: set<string>,
    fetch: Fetch, succeeds: Statement -> bool, o: Outcome)
  {
    var configured := ConfiguredLocations(endpoints);
    var missingLocations := Missing(configured, storedLocations);
    var missingRooms := Missing(ConfiguredRooms(endpoints), storedRooms);
    var n := |o.stagedLocations|;
    && Elems(o.requests) == configured && |o.requests| == |configured|
    && o.stagedLocations == StagedLocations(configured, missingLocations, fetch)
    && o.stagedRooms == StagedRooms(configured, missingRooms, fetch)
    && |o.executed| == n + |o.stagedRooms|
    && Elems(o.executed[..n]) == (set d | d in o.stagedLocations :: LocationInsert(d))
    && Elems(o.executed[n..]) == (set d | d in o.stagedRooms :: RoomInsert(d))
    && o.failedLocations == (set d | d in o.stagedLocations && !succeeds(LocationInsert(d)))
    && o.failedRooms == (set d | d in o.stagedRooms && !succeeds(RoomInsert(d)))
  }

  lemma ElemsMap<T>(order: seq<T>, executed: seq<Statement>, insert: T -> Statement)
    requires |executed| == |order|
    requires forall i :: 0 <= i < |order| ==> executed[i] == insert(order[i])
    ensures Elems(executed) == (set d | d in Elems(order) :: insert(d))
  {
    forall s | s in Elems(executed)
      ensures s in (set d | d in Elems(order) :: insert(d))
    {
      var i :| 0 <= i < |executed| && executed[i] == s;
      assert order[i] in Elems(order);
    }
  }

  /** `db_precheck`: reads the stored location ids, then the stored room ids (the first
      failure ends the run with its error), then stages and inserts what is missing. */
  method RunPrecheck(
    endpoints: seq<RoomMachinesEndpoint>,
    locationRows: Result<seq<Row>, DbError>,
    roomRows: Result<seq<Row>, DbError>,
    fetch: Fetch,
    succeeds: Statement -> bool)
    returns (r: Result<Outcome, PrecheckError>)
    ensures locationRows.Err? ==> r == Err(Db(locationRows.error))
    ensures locationRows.Ok? && !QueryReadable(locationRows) ==>
      r.Err? && FirstBadRowError(locationRows.value, r.error)
    ensures QueryReadable(locationRows) && roomRows.Err? ==> r == Err(Db(roomRows.error))
    ensures QueryReadable(locationRows) && roomRows.Ok? && !QueryReadable(roomRows) ==>
      r.Err? && FirstBadRowError(roomRows.value, r.error)
    ensures r.Ok? <==> QueryReadable(locationRows) && QueryReadable(roomRows)
    ensures r.Ok? ==> Reconciles(endpoints, TextsOf(locationRows.value), TextsOf(roomRows.value),
                                 fetch, succeeds, r.value)
  {
    var configuredLocations, configuredRooms := CollectConfigured(endpoints);
    var storedLocations := QueryAsSet(locationRows);
    if storedLocations.Err? {
      return Err(storedLocations.error);
    }
    var storedRooms := QueryAsSet(roomRows);
    if storedRooms.Err? {
      return Err(storedRooms.error);
    }
    var missingLocations := Missing(configuredLocations, storedLocations.value);
    var missingRooms := Missing(configuredRooms, storedRooms.value);
    var requests, locations, rooms := StageAll(configuredLocations, missingLocations, missingRooms, fetch);
    var locationOrder, locationStatements, failedLocations := RunInserts(locations, LocationInsert, succeeds);
    var roomOrder, roomStatements, failedRooms := RunInserts(rooms, RoomInsert, succeeds);
    ElemsMap(locationOrder, locationStatements, LocationInsert);
    ElemsMap(roomOrder, roomStatements, RoomInsert);
    var executed := locationStatements + roomStatements;
    assert executed[..|locations|] == locationStatements;
    assert executed[|locations|..] == roomStatements;
    return Ok(Outcome(requests, locations, rooms, executed, failedLocations, failedRooms));
  }
}

module PrecheckProperties {
  import opened Wrappers
  import opened Uuid
  import opened Api
  import opened Precheck
  import opened PrecheckStaging

  /** Location `l` stages `d` when it was asked for, its reply's UUID text is missing
      from the store, and `d` is that reply's record. */
  ghost predicate StagesLocation(l: string, asked: set<string>, missingLocations: set<string>, fetch: Fetch, d: DbLocation) {
    && l in asked && fetch(l).Some?
    && ToString(fetch(l).value.locationId) in missingLocations
    && d == DbLocationOf(fetch(l).value)
  }

  /** A staged location is exactly the record of a reply to a location that was asked
      for, whose UUID text is missing from the store. */
  lemma StagedLocationsExactly(asked: set<string>, missingLocations: set<string>, fetch: Fetch, d: DbLocation)
    ensures d in StagedLocations(asked, missingLocations, fetch)
        <==> exists l :: StagesLocation(l, asked, missingLocations, fetch, d)
  {
    if d in StagedLocations(asked, missingLocations, fetch) {
      var l :| l in asked && d in LocationStage(l, missingLocations, fetch);
      assert StagesLocation(l, asked, missingLocations, fetch, d);
    }
    if exists l :: StagesLocation(l, asked, missingLocations, fetch, d) {
      var l :| StagesLocation(l, asked, missingLocations, fetch, d);
      assert d in LocationStage(l, missingLocations, fetch);
    }
  }

  /** A staged room is exactly the record of a room listed in a reply to a location that
      was asked for, whose room id is missing from the store. */
  lemma StagedRoomsExactly(asked: set<string>, missingRooms: set<string>, fetch: Fetch, d: DbRoom)
    ensures d in StagedRooms(asked, missingRooms, fetch)
        <==> exists l, i :: && l in asked && fetch(l).Some?
                            && 0 <= i < |fetch(l).value.rooms|
                            && fetch(l).value.rooms[i].roomId in missingRooms
                            && d == DbRoomOf(fetch(l).value.rooms[i])
  {
    if d in StagedRooms(asked, missingRooms, fetch) {
      var l :| l in asked && d in RoomStage(l, missingRooms, fetch);
      var i :| 0 <= i < |fetch(l).value.rooms| && fetch(l).value.rooms[i].roomId in missingRooms
               && d == DbRoomOf(fetch(l).value.rooms[i]);
    }
    if exists l, i :: && l in asked && fetch(l).Some?
                      && 0 <= i < |fetch(l).value.rooms|
                      && fetch(l).value.rooms[i].roomId in missingRooms
                      && d == DbRoomOf(fetch(l).value.rooms[i]) {
      var l, i :| && l in asked && fetch(l).Some?
                  && 0 <= i < |fetch(l).value.rooms|
                  && fetch(l).value.rooms[i].roomId in missingRooms
                  && d == DbRoomOf(fetch(l).value.rooms[i]);
      assert d in RoomStage(l, missingRooms, fetch);
    }
  }

  /** A location whose metadata request fails contributes nothing: the run stages what
      it would have staged without asking for it. */
  lemma FailedRequestIsSkipped(asked: set<string>, l: string, missingLocations: set<string>,
                               missingRooms: set<string>, fetch: Fetch)
    requires fetch(l).None?
    ensures StagedLocations(asked, missingLocations, fetch) == StagedLocations(asked - {l}, missingLocations, fetch)
    ensures StagedRooms(asked, missingRooms, fetch) == StagedRooms(asked - {l}, missingRooms, fetch)
  {
    if l in asked {
      assert asked == (asked - {l}) + {l};
      StagedLocationsStep(asked - {l}, l, missingLocations, fetch);
      StagedRoomsStep(asked - {l}, l, missingRooms, fetch);
    }
  }

  /** When everything configured is already stored, nothing is staged. */
  lemma NothingMissingNothingStaged(configured: set<string>, stored: set<string>,
                                    configuredRooms: set<string>, storedRooms: set<string>, fetch: Fetch)
    requires configured <= stored && configuredRooms <= storedRooms
    ensures StagedLocations(configured, Missing(configured, stored), fetch) == {}
    ensures StagedRooms(configured, Missing(configuredRooms, storedRooms), fetch) == {}
  {
    assert Missing(configured, stored) == {};
    assert Missing(configuredRooms, storedRooms) == {};
  }

  /** A staged location's id is always the canonical text of a UUID, so a configured id
      written any other way (upper-case hex, braces, no hyphens) is never staged even
      when it is missing. */
  lemma StagedLocationIdIsCanonical(asked: set<string>, missingLocations: set<string>, fetch: Fetch, d: DbLocation)
    requires d in StagedLocations(asked, missingLocations, fetch)
    ensures d.locationId in missingLocations
    ensures Parse(d.locationId).Some? && ToString(Parse(d.locationId).value) == d.locationId
  {
    var l :| l in asked && d in LocationStage(l, missingLocations, fetch);
    ParseToString(fetch(l).value.locationId);
  }

  /** Staging with fewer missing ids stages a subset. */
  lemma StagedMonotone(asked: set<string>, fewer: set<string>, more: set<string>, fetch: Fetch)
    requires fewer <= more
    ensures StagedLocations(asked, fewer, fetch) <= StagedLocations(asked, more, fetch)
    ensures StagedRooms(asked, fewer, fetch) <= StagedRooms(asked, more, fetch)
  {
    forall d | d in StagedLocations(asked, fewer, fetch)
      ensures d in StagedLocations(asked, more, fetch)
    {
      var l :| l in asked && d in LocationStage(l, fewer, fetch);
      assert d in LocationStage(l, more, fetch);
    }
    forall d | d in StagedRooms(asked, fewer, fetch)
      ensures d in StagedRooms(asked, more, fetch)
    {
      var l :| l in asked && d in RoomStage(l, fewer, fetch);
      assert d in RoomStage(l, more, fetch);
    }
  }

  /** Every staged id is one of the missing ids. */
  lemma StagedIdsAreMissing(asked: set<string>, missing: set<string>, fetch: Fetch)
    ensures forall d :: d in StagedLocations(asked, missing, fetch) ==> d.locationId in missing
    ensures forall d :: d in StagedRooms(asked, missing, fetch) ==> d.roomId in missing
  {
    forall d | d in StagedRooms(asked, missing, fetch)
      ensures d.roomId in missing
    {
      var l :| l in asked && d in RoomStage(l, missing, fetch);
    }
  }

  /** Running the reconciliation again, after every staged insert succeeded and with the
      same replies, stages nothing new: the store then holds every id the first run could
      find. */
  lemma {:induction false} SecondRunStagesNothing(
    configured: set<string>, configuredRooms: set<string>,
    stored: set<string>, storedRooms: set<string>, fetch: Fetch)
    ensures var staged := StagedLocations(configured, Missing(configured, stored), fetch);
            var storedAfter := stored + (set d | d in staged :: d.locationId);
            StagedLocations(configured, Missing(configured, storedAfter), fetch) == {}
    ensures var staged := StagedRooms(configured, Missing(configuredRooms, storedRooms), fetch);
            var storedAfter := storedRooms + (set d | d in staged :: d.roomId);
            StagedRooms(configured, Missing(configuredRooms, storedAfter), fetch) == {}
  {
    var staged := StagedLocations(configured, Missing(configured, stored), fetch);
    var storedAfter := stored + (set d | d in staged :: d.locationId);
    StagedMonotone(configured, Missing(configured, storedAfter), Missing(configured, stored), fetch);
    StagedIdsAreMissing(configured, Missing(configured, storedAfter), fetch);
    var stagedRooms := StagedRooms(configured, Missing(configuredRooms, storedRooms), fetch);
    var storedRoomsAfter := storedRooms + (set d | d in stagedRooms :: d.roomId);
    StagedMonotone(configured, Missing(configuredRooms, storedRoomsAfter), Missing(configuredRooms, storedRooms), fetch);
    StagedIdsAreMissing(configured, Missing(configuredRooms, storedRoomsAfter), fetch);
  }
}

=== FILE: scrape.dfy ===
/** The scraper of `logic/http.rs`: the sleep jitter, one scrape task per configured
    endpoint, what a scrape task does with each request's outcome, and the controller
    that answers the database side's metadata requests. Scheduling, channels and the
    cancellation token are reduced to a sequence of observed events; a finite sequence
    is a finite observation of loops that otherwise run forever. */
module Scrape {
  import opened Wrappers
  import opened Config
  import opened Endpoint
  import opened Api
  import Url
  import Migration

  const MIN_OFFSET: int := -9
  const MAX_OFFSET: int := 9
  const BASE_SECONDS: int := 60

  /** `get_minute_dur_offset`: `(60 + offset) as u64` seconds, the offset drawn from
      `[-9, 9]`. The cast never wraps. */
  function SleepSeconds(offset: int): (secs: nat)
    requires MIN_OFFSET <= offset <= MAX_OFFSET
    ensures 51 <= secs <= 69
    ensures secs == BASE_SECONDS + offset
  {
    Migration.AsU64(BASE_SECONDS + offset)
  }

  /** Every duration in `[51, 69]` seconds can be drawn. */
  lemma SleepSecondsOnto(secs: int)
    requires 51 <= secs <= 69
    ensures exists offset :: MIN_OFFSET <= offset <= MAX_OFFSET && SleepSeconds(offset) == secs
  {
    assert SleepSeconds(secs - BASE_SECONDS) == secs;
  }

  // ----- Fan-out -----

  /** A spawned scrape task: its endpoint and the URL it polls. */
  datatype ScrapeTask = ScrapeTask(endpoint: RoomMachinesEndpoint, url: string)

  /** `http_endpoints`: one scrape task per configured endpoint, in order, each polling
      the machines URL of its endpoint. */
  method HttpEndpoints(config: ApiConfig) returns (tasks: seq<ScrapeTask>)
    ensures |tasks| == |config.endpoints|
    ensures forall i :: 0 <= i < |tasks| ==> tasks[i].endpoint == config.endpoints[i]
    ensures forall i :: 0 <= i < |tasks| ==>
      tasks[i].url == Url.Machines(config, config.endpoints[i].locationId, config.endpoints[i].roomId)
  {
    tasks := [];
    var k := 0;
    while k < |config.endpoints|
      invariant 0 <= k <= |config.endpoints|
      invariant |tasks| == k
      invariant forall i :: 0 <= i < k ==> tasks[i].endpoint == config.endpoints[i]
      invariant forall i :: 0 <= i < k ==>
        tasks[i].url == Url.Machines(config, config.endpoints[i].locationId, config.endpoints[i].roomId)
    {
      var e := config.endpoints[k];
      tasks := tasks + [ScrapeTask(e, Url.Machines(config, e.locationId, e.roomId))];
      k := k + 1;
    }
  }

  // ----- One scrape task -----

  /** An HTTP response, reduced to its status code. */
  datatype Response = Response(status: int)

  /** What the request after a sleep produced: a transport error, or a response handed
      to the channel, which may already be closed. */
  datatype Attempt = TransportError | Delivered(response: Response, channelOpen: bool)

  /** What a scrape task observes in one turn of its loop: the cancellation winning the
      race against the sleep, or the sleep ending (with the drawn offset) and the request
      that follows. */
  datatype ScrapeEvent = Cancelled | Slept(offset: int, attempt: Attempt)

  /** The messages a scrape task sends to the database side. */
  datatype ScrapeMessage = ApiResponse(response: Response) | ApiError(status: int)

  /** `error_for_status`: a client (4xx) or server (5xx) status is an error. */
  function Classify(res: Response): (m: ScrapeMessage)
    ensures m.ApiError? <==> 400 <= res.status <= 599
    ensures m.ApiError? ==> m.status == res.status
    ensures m.ApiResponse? ==> m.response == res
  {
    if 400 <= res.status <= 599 then ApiError(res.status) else ApiResponse(res)
  }

  predicate ValidOffsets(events: seq<ScrapeEvent>) {
    forall i :: 0 <= i < |events| && events[i].Slept? ==> MIN_OFFSET <= events[i].offset <= MAX_OFFSET
  }

  /** What a scrape task did: the sleeps it took, the URLs it requested, the messages the
      channel accepted, the number of sends the closed channel refused, and whether it
      stopped on cancellation. */
  datatype ScrapeTrace = ScrapeTrace(
    sleeps: seq<nat>, requests: seq<string>, sent: seq<ScrapeMessage>, failedSends: nat, cancelled: bool)

  /** The number of events before the first cancellation. */
  function Live(events: seq<ScrapeEvent>): (n: nat)
    ensures n <= |events|
    ensures forall i :: 0 <= i < n ==> events[i].Slept?
    ensures n < |events| ==> events[n].Cancelled?
  {
    if |events| == 0 || events[0].Cancelled? then 0 else 1 + Live(events[1..])
  }

  /** `scrape_task` over a sequence of events. */
  function ScrapeRun(url: string, events: seq<ScrapeEvent>): (t: ScrapeTrace)
    requires ValidOffsets(events)
    ensures |t.sleeps| == |t.requests| == Live(events)
    ensures forall i :: 0 <= i < |t.sleeps| ==> 51 <= t.sleeps[i] <= 69
    ensures forall i :: 0 <= i < |t.requests| ==> t.requests[i] == url
    ensures |t.sent| + t.failedSends <= |t.requests|
    ensures t.cancelled <==> Live(events) < |events|
    ensures forall i :: 0 <= i < |t.sleeps| ==> events[i].Slept? && t.sleeps[i] == SleepSeconds(events[i].offset)
  {
    if |events| == 0 then ScrapeTrace([], [], [], 0, false)
    else match events[0]
      case Cancelled => ScrapeTrace([], [], [], 0, true)
      case Slept(offset, attempt) =>
        var rest := ScrapeRun(url, events[1..]);
        var turn := rest.(sleeps := [SleepSeconds(offset)] + rest.sleeps, requests := [url] + rest.requests);
        match attempt
        case TransportError => turn
        case Delivered(res, open) =>
          if open then turn.(sent := [Classify(res)] + rest.sent)
          else turn.(failedSends := rest.failedSends + 1)
  }

  /** The messages a task's live turns produce, one per delivered response. */
  function Produced(events: seq<ScrapeEvent>): seq<ScrapeMessage> {
    if |events| == 0 || events[0].Cancelled? then []
    else if events[0].attempt.Delivered? then [Classify(events[0].attempt.response)] + Produced(events[1..])
    else Produced(events[1..])
  }

  /** Nothing after a cancellation happens: the task stops before its next request. */
  lemma {:induction false} CancelIsFinal(url: string, before: seq<ScrapeEvent>, after: seq<ScrapeEvent>)
    requires ValidOffsets(before + [Cancelled] + after)
    ensures ValidOffsets(before + [Cancelled])
    ensures ScrapeRun(url, before + [Cancelled] + after) == ScrapeRun(url, before + [Cancelled])
    ensures ScrapeRun(url, before + [Cancelled] + after).cancelled
    decreases |before|
  {
    var all := before + [Cancelled] + after;
    var cut := before + [Cancelled];
    assert forall i :: 0 <= i < |cut| ==> cut[i] == all[i];
    if |before| == 0 {
      assert all[0] == Cancelled && cut[0] == Cancelled;
    } else if before[0].Cancelled? {
      assert all[0] == Cancelled && cut[0] == Cancelled;
    } else {
      assert all[1..] == before[1..] + [Cancelled] + after;
      assert cut[1..] == before[1..] + [Cancelled];
      CancelIsFinal(url, before[1..], after);
    }
  }

  /** Every delivered response that the channel accepted is sent, classified, in order;
      a refused send is only counted and the loop goes on. */
  lemma {:induction false} SentAreProducedWhenOpen(url: string, events: seq<ScrapeEvent>)
    requires ValidOffsets(events)
    requires forall i :: 0 <= i < |events| && events[i].Slept? && events[i].attempt.Delivered?
               ==> events[i].attempt.channelOpen
    ensures ScrapeRun(url, events).sent == Produced(events)
    ensures ScrapeRun(url, events).failedSends == 0
  {
    if |events| > 0 && events[0].Slept? {
      SentAreProducedWhenOpen(url, events[1..]);
    }
  }

  /** A transport error sends nothing and the task goes on to its next turn. */
  lemma TransportErrorSendsNothing(url: string, offset: int, rest: seq<ScrapeEvent>)
    requires MIN_OFFSET <= offset <= MAX_OFFSET && ValidOffsets(rest)
    ensures ValidOffsets([Slept(offset, TransportError)] + rest)
    ensures var t := ScrapeRun(url, [Slept(offset, TransportError)] + rest);
            var u := ScrapeRun(url, rest);
            && t.sent == u.sent && t.failedSends == u.failedSends && t.cancelled == u.cancelled
            && t.requests == [url] + u.requests
  {
    assert ([Slept(offset, TransportError)] + rest)[1..] == rest;
  }

  /** A refused send is only counted: the task goes on to its next turn. */
  lemma RefusedSendContinues(url: string, offset: int, res: Response, rest: seq<ScrapeEvent>)
    requires MIN_OFFSET <= offset <= MAX_OFFSET && ValidOffsets(rest)
    ensures ValidOffsets([Slept(offset, Delivered(res, false))] + rest)
    ensures var t := ScrapeRun(url, [Slept(offset, Delivered(res, false))] + rest);
            var u := ScrapeRun(url, rest);
            && t.sent == u.sent && t.failedSends == u.failedSends + 1 && t.cancelled == u.cancelled
            && t.requests == [url] + u.requests
  {
    assert ([Slept(offset, Delivered(res, false))] + rest)[1..] == rest;
  }

  // ----- The controller -----

  /** The requests the database side sends to the controller. */
  datatype DbRequest = Noop | MissingMachineIdent | MissingRoomLocationIdent(locationId: string)

  /** What the controller observes in one turn: cancellation, the inbound channel closing,
      or a request (with whether the requester still waits for the reply). */
  datatype ControlEvent = Cancel | Closed | Received(request: DbRequest, requesterWaiting: bool)

  /** How the controller's loop ended, if it did. */
  datatype Ending = StillRunning | StoppedByCancel | StoppedByClose | Panicked

  /** A reply sent on a request's return channel. */
  datatype Reply = Reply(locationId: string, body: ApiLocation)

  /** What the controller did: the URLs it fetched, the replies it sent, how it ended. */
  datatype ControlTrace = ControlTrace(fetched: seq<string>, replies: seq<Reply>, ending: Ending)

  /** `http_controller` over a sequence of events; `fetch` is the body a GET of a URL
      decodes to, `None` when the request or the decoding fails. */
  function ControlRun(config: ApiConfig, fetch: string -> Option<ApiLocation>, events: seq<ControlEvent>): (t: ControlTrace)
    ensures |t.replies| <= |t.fetched|
    ensures forall i :: 0 <= i < |t.fetched| ==> exists l :: t.fetched[i] == Url.Location(config, l)
    ensures t.ending == StillRunning ==> |t.replies| == |t.fetched|
  {
    if |events| == 0 then ControlTrace([], [], StillRunning)
    else match events[0]
      case Cancel => ControlTrace([], [], StoppedByCancel)
      case Closed => ControlTrace([], [], StoppedByClose)
      case Received(request, waiting) =>
        match request
        case Noop => ControlRun(config, fetch, events[1..])
        case MissingMachineIdent => ControlTrace([], [], Panicked)
        case MissingRoomLocationIdent(l) =>
          var url := Url.Location(config, l);
          match fetch(url)
          case None => ControlTrace([url], [], Panicked)
          case Some(body) =>
            if !waiting then ControlTrace([url], [], Panicked)
            else
              var rest := ControlRun(config, fetch, events[1..]);
              ControlTrace([url] + rest.fetched, [Reply(l, body)] + rest.replies, rest.ending)
  }

  /** The location ids requested before the loop ends. */
  function Requested(events: seq<ControlEvent>): seq<string> {
    if |events| == 0 || !events[0].Received? then []
    else if events[0].request.MissingRoomLocationIdent? then [events[0].request.locationId] + Requested(events[1..])
    else if events[0].request.MissingMachineIdent? then []
    else Requested(events[1..])
  }

  /** Every request is served: the fetch succeeds and the requester waits. */
  ghost predicate Served(config: ApiConfig, fetch: string -> Option<ApiLocation>, events: seq<ControlEvent>) {
    forall i :: 0 <= i < |events| && events[i].Received? && events[i].request.MissingRoomLocationIdent?
      ==> events[i].requesterWaiting && fetch(Url.Location(config, events[i].request.locationId)).Some?
  }

  /** When every request is served, each gets exactly one reply, in order, carrying the
      body fetched from its location URL. */
  lemma {:induction false} OneReplyPerRequest(config: ApiConfig, fetch: string -> Option<ApiLocation>, events: seq<ControlEvent>)
    requires Served(config, fetch, events)
    ensures var t := ControlRun(config, fetch, events);
            var ids := Requested(events);
            && |t.replies| == |t.fetched| == |ids|
            && forall i :: 0 <= i < |ids| ==>
                 && t.fetched[i] == Url.Location(config, ids[i])
                 && fetch(Url.Location(config, ids[i])).Some?
                 && t.replies[i] == Reply(ids[i], fetch(Url.Location(config, ids[i])).value)
  {
    if |events| > 0 && events[0].Received? && !events[0].request.MissingMachineIdent? {
      assert Served(config, fetch, events[1..]) by {
        forall i | 0 <= i < |events[1..]| && events[1..][i].Received? && events[1..][i].request.MissingRoomLocationIdent?
          ensures events[1..][i].requesterWaiting && fetch(Url.Location(config, events[1..][i].request.locationId)).Some?
        {
          assert events[1..][i] == events[i + 1];
        }
      }
      OneReplyPerRequest(config, fetch, events[1..]);
    }
  }

  /** A request whose fetch fails, or whose requester stopped waiting, ends the
      controller in a panic. */
  lemma UnservedRequestPanics(config: ApiConfig, fetch: string -> Option<ApiLocation>, l: string,
                              waiting: bool, rest: seq<ControlEvent>)
    requires fetch(Url.Location(config, l)).None? || !waiting
    ensures ControlRun(config, fetch, [Received(MissingRoomLocationIdent(l), waiting)] + rest).ending == Panicked
  {
  }

  /** The controller stops at the first cancellation or channel close: nothing after it
      is fetched or replied. */
  lemma {:induction false} StopIsFinal(config: ApiConfig, fetch: string -> Option<ApiLocation>,
                                       before: seq<ControlEvent>, stop: ControlEvent, after: seq<ControlEvent>)
    requires stop.Cancel? || stop.Closed?
    ensures ControlRun(config, fetch, before + [stop] + after) == ControlRun(config, fetch, before + [stop])
    ensures ControlRun(config, fetch, before + [stop] + after).ending != StillRunning
    decreases |before|
  {
    var all := before + [stop] + after;
    var cut := before + [stop];
    if |before| == 0 {
      assert all[0] == stop && cut[0] == stop;
    } else {
      assert all[0] == before[0] && cut[0] == before[0];
      assert all[1..] == before[1..] + [stop] + after;
      assert cut[1..] == before[1..] + [stop];
      StopIsFinal(config, fetch, before[1..], stop, after);
    }
  }
}

=== FILE: spawner.dfy ===
/** The older scraper of `http.rs`: one task per endpoint, each with its own cancel
    channel, polling the endpoint's compile-time URL and only logging the outcome. */
module Spawner {
  import opened Wrappers
  import opened Endpoint

  const MIN_OFFSET: int := 0
  const MAX_OFFSET: int := 9
  const BASE_SECONDS: int := 60

  /** `get_minute_dur_offset`: `60 + offset` seconds, the offset drawn from `[0, 9]`; the
      sleep is never shorter than the minute. */
  function SleepSeconds(offset: int): (secs: nat)
    requires MIN_OFFSET <= offset <= MAX_OFFSET
    ensures BASE_SECONDS <= secs <= 69
    ensures secs - BASE_SECONDS == offset
  {
    BASE_SECONDS + offset
  }

  /** Every duration in `[60, 69]` seconds can be drawn. */
  lemma SleepSecondsOnto(secs: int)
    requires 60 <= secs <= 69
    ensures exists offset :: MIN_OFFSET <= offset <= MAX_OFFSET && SleepSeconds(offset) == secs
  {
    assert SleepSeconds(secs - BASE_SECONDS) == secs;
  }

  /** A spawned task: its endpoint and the cancel channel it listens on. */
  datatype HttpTask = HttpTask(endpoint: RoomMachinesEndpoint, cancelChannel: nat)

  /** The sending half of a cancel channel. */
  datatype CancelSender = CancelSender(channel: nat)

  /** Building the HTTP client failed. */
  datatype SpawnError = ClientBuildFailed

  /** `http_spawner`: fails when the client cannot be built; otherwise one task and one
      cancel sender per endpoint, in endpoint order, each sender paired with its task's
      channel and no two tasks sharing a channel. */
  method HttpSpawner(endpoints: seq<RoomMachinesEndpoint>, clientBuilds: bool)
    returns (r: Result<(seq<HttpTask>, seq<CancelSender>), SpawnError>)
    ensures r.Err? <==> !clientBuilds
    ensures r.Ok? ==> |r.value.0| == |r.value.1| == |endpoints|
    ensures r.Ok? ==> forall i :: 0 <= i < |endpoints| ==>
      r.value.0[i].endpoint == endpoints[i] && r.value.1[i].channel == r.value.0[i].cancelChannel
    ensures r.Ok? ==> forall i, j :: 0 <= i < j < |endpoints| ==> r.value.1[i] != r.value.1[j]
  {
    if !clientBuilds {
      return Err(ClientBuildFailed);
    }
    var tasks: seq<HttpTask> := [];
    var senders: seq<CancelSender> := [];
    var k := 0;
    while k < |endpoints|
      invariant 0 <= k <= |endpoints|
      invariant |tasks| == |senders| == k
      invariant forall i :: 0 <= i < k ==> tasks[i].endpoint == endpoints[i] && senders[i].channel == tasks[i].cancelChannel
      invariant forall i :: 0 <= i < k ==> senders[i].channel == i
    {
      tasks := tasks + [HttpTask(endpoints[k], k)];
      senders := senders + [CancelSender(k)];
      k := k + 1;
    }
    return Ok((tasks, senders));
  }

  /** What a task observes in one turn: the cancel firing during the sleep, or the sleep
      ending (with the drawn offset) and the request's outcome. */
  datatype TaskEvent = CancelFired | Slept(offset: int, requestSucceeded: bool)

  predicate ValidOffsets(events: seq<TaskEvent>) {
    forall i :: 0 <= i < |events| && events[i].Slept? ==> MIN_OFFSET <= events[i].offset <= MAX_OFFSET
  }

  /** What a task did: the sleeps it took, the URLs it requested, and whether it stopped
      on cancellation. The request outcomes are only logged. */
  datatype TaskTrace = TaskTrace(sleeps: seq<nat>, requests: seq<string>, cancelled: bool)

  /** `http_task` over a sequence of events. */
  function TaskRun(env: BuildEnv, e: RoomMachinesEndpoint, events: seq<TaskEvent>): (t: TaskTrace)
    requires ValidOffsets(events)
    ensures |t.sleeps| == |t.requests| <= |events|
    ensures forall i :: 0 <= i < |t.sleeps| ==> 60 <= t.sleeps[i] <= 69
    ensures forall i :: 0 <= i < |t.requests| ==> t.requests[i] == BuildUrl(env, e)
    ensures t.cancelled <==> exists i :: 0 <= i < |events| && events[i].CancelFired?
    ensures t.cancelled ==> |t.requests| < |events| && events[|t.requests|].CancelFired?
    ensures forall i :: 0 <= i < |t.requests| ==> events[i].Slept?
    ensures forall i :: 0 <= i < |t.sleeps| ==> t.sleeps[i] == SleepSeconds(events[i].offset)
    ensures !t.cancelled ==> |t.requests| == |events|
  {
    if |events| == 0 then TaskTrace([], [], false)
    else match events[0]
      case CancelFired => TaskTrace([], [], true)
      case Slept(offset, _) =>
        var rest := TaskRun(env, e, events[1..]);
        assert forall i :: 0 <= i < |events[1..]| ==> events[1..][i] == events[i + 1];
        TaskTrace([SleepSeconds(offset)] + rest.sleeps, [BuildUrl(env, e)] + rest.requests, rest.cancelled)
  }
}

=== FILE: sql.dfy ===
/** Rows as the SQL middleware hands them over: typed column values, read by index. */
module Sql {
  import opened Wrappers
  import opened Bytes

  /** One column value (`RowValues`). A timestamp is held as the Unix seconds of its
      UTC reading (`value.and_utc().timestamp()`). */
  datatype SqlValue =
    | Null
    | Int(i: int)
    | Float(f: real)
    | Text(s: string)
    | Bool(b: bool)
    | Timestamp(unixSeconds: int)
    | Blob(bytes: seq<Byte>)

  type Row = seq<SqlValue>

  /** The error type of the middleware (`SqlMiddlewareDbError`). */
  datatype DbError = Unimplemented(message: string) | Backend(message: string)

  /** `get_by_index`: the value of column `i`, if the row has one. */
  function GetByIndex(row: Row, i: nat): (r: Option<SqlValue>)
    ensures r.Some? <==> i < |row|
  {
    if i < |row| then Some(row[i]) else None
  }

  /** `as_int`: only an integer value reads as one. */
  function AsInt(v: SqlValue): (r: Option<int>)
    ensures r.Some? <==> v.Int?
  {
    if v.Int? then Some(v.i) else None
  }

  /** `as_text`: only a text value reads as one. */
  function AsText(v: SqlValue): (r: Option<string>)
    ensures r.Some? <==> v.Text?
  {
    if v.Text? then Some(v.s) else None
  }

  /** `as_timestamp`: only a timestamp value reads as one. */
  function AsTimestamp(v: SqlValue): (r: Option<int>)
    ensures r.Some? <==> v.Timestamp?
  {
    if v.Timestamp? then Some(v.unixSeconds) else None
  }
}

=== FILE: url.dfy ===
/** The URL builders of `utils.rs` (`url::machines`, `url::location`), which put the
    configured protocol, host and port in front of the API path. */
module Url {
  import opened Wrappers
  import opened Config
  import opened Endpoint

  predicate IsDigit(c: char) {
    '0' <= c <= '9'
  }

  /** The decimal text Rust's `Display` gives an unsigned integer: no sign, no leading zero. */
  function Decimal(n: nat): (s: string)
    ensures |s| >= 1
    ensures forall i :: 0 <= i < |s| ==> IsDigit(s[i])
    ensures |s| > 1 ==> s[0] != '0'
    decreases n
  {
    var d := ('0' as int + n % 10) as char;
    if n < 10 then [d] else Decimal(n / 10) + [d]
  }

  /** The value of a string of decimal digits; the partner of `Decimal`. */
  function DigitsValue(s: string): (r: Option<nat>)
    ensures r.Some? <==> |s| >= 1 && forall i :: 0 <= i < |s| ==> IsDigit(s[i])
  {
    if |s| == 0 || !IsDigit(s[|s| - 1]) then None
    else if |s| == 1 then Some(s[0] as int - '0' as int)
    else match DigitsValue(s[..|s| - 1])
      case None =>
        assert !IsDigit(s[..|s| - 1][|s[..|s| - 1]| - 1]) || exists i :: 0 <= i < |s| - 1 && !IsDigit(s[i]);
        None
      case Some(v) =>
        assert forall i :: 0 <= i < |s| - 1 ==> s[..|s| - 1][i] == s[i];
        Some(10 * v + (s[|s| - 1] as int - '0' as int))
  }

  /** Reading the decimal text of a number gives the number back. */
  lemma {:induction false} DigitsValueDecimal(n: nat)
    ensures DigitsValue(Decimal(n)) == Some(n)
    decreases n
  {
    if n >= 10 {
      var s := Decimal(n);
      DigitsValueDecimal(n / 10);
      assert s[..|s| - 1] == Decimal(n / 10);
    }
  }

  /** Different ports have different texts. */
  lemma DecimalInjective(m: nat, n: nat)
    requires Decimal(m) == Decimal(n)
    ensures m == n
  {
    DigitsValueDecimal(m);
    DigitsValueDecimal(n);
  }

  /** `proto://host:port`, shared by both builders. */
  function Origin(c: ApiConfig): string {
    c.proto + "://" + c.host + ":" + Decimal(c.port)
  }

  /** `url::location`: the origin, then `/api/v1/location/` and the location id as given. */
  function Location(c: ApiConfig, locationId: string): (r: string)
    ensures LocationIdOf(c, r) == Some(locationId)
  {
    var prefix := Origin(c) + LocationPath;
    assert prefix + locationId == Origin(c) + LocationPath + locationId;
    prefix + locationId
  }

  /** `url::machines`: the origin, then the location and room path and `/machines`. */
  function Machines(c: ApiConfig, locationId: string, roomId: string): string {
    Origin(c) + LocationPath + locationId + RoomPath + roomId + MachinesPath
  }

  /** The location URL is `proto://host:port/api/v1/location/` followed by the location
      id exactly as given. */
  lemma LocationShape(c: ApiConfig, locationId: string)
    ensures var url := Location(c, locationId);
      && url[..|Origin(c)|] == c.proto + "://" + c.host + ":" + Decimal(c.port)
      && url[|Origin(c)|..|Origin(c)| + |LocationPath|] == LocationPath
      && url[|Origin(c)| + |LocationPath|..] == locationId
  {
    var url := Location(c, locationId);
    assert url == (Origin(c) + LocationPath) + locationId;
  }

  /** The machines URL starts with `proto://host:port`, ends with `/machines`, and holds
      both ids verbatim at fixed offsets. */
  lemma MachinesShape(c: ApiConfig, locationId: string, roomId: string)
    ensures var url := Machines(c, locationId, roomId);
      var start := |Origin(c)| + |LocationPath|;
      && |url| == start + |locationId| + |RoomPath| + |roomId| + |MachinesPath|
      && url[..|Origin(c)|] == c.proto + "://" + c.host + ":" + Decimal(c.port)
      && url[start..start + |locationId|] == locationId
      && url[start + |locationId| + |RoomPath|..start + |locationId| + |RoomPath| + |roomId|] == roomId
      && url[|url| - |MachinesPath|..] == MachinesPath
  {
    var url := Machines(c, locationId, roomId);
    assert url == (Origin(c) + LocationPath) + locationId + (RoomPath + roomId + MachinesPath);
    assert url == (Origin(c) + LocationPath + locationId + RoomPath) + roomId + MachinesPath;
  }

  /** The machines URL of a room extends the location URL of its location, so the
      location URL is a prefix of it. */
  lemma MachinesExtendsLocation(c: ApiConfig, locationId: string, roomId: string)
    ensures Machines(c, locationId, roomId) == Location(c, locationId) + RoomPath + roomId + MachinesPath
    ensures Location(c, locationId) <= Machines(c, locationId, roomId)
  {
    assert Machines(c, locationId, roomId) == Location(c, locationId) + (RoomPath + roomId + MachinesPath);
  }

  /** Both URLs depend on the configuration only through protocol, host and port: the
      endpoints list and the user agent play no part. */
  lemma OnlyProtoHostPortMatter(c1: ApiConfig, c2: ApiConfig, locationId: string, roomId: string)
    requires c1.proto == c2.proto && c1.host == c2.host && c1.port == c2.port
    ensures Location(c1, locationId) == Location(c2, locationId)
    ensures Machines(c1, locationId, roomId) == Machines(c2, locationId, roomId)
  {
  }

  /** Reads the location id back out of a location URL built with configuration `c`. */
  function LocationIdOf(c: ApiConfig, url: string): (r: Option<string>)
  {
    var prefix := Origin(c) + LocationPath;
    if prefix <= url then Some(url[|prefix|..]) else None
  }

  /** The ids are spliced in without escaping, so moving a `/room/` segment from one id
      into the other gives another endpoint with the same machines URL. */
  lemma MachinesIdsNotEscaped(c: ApiConfig, l: string, m: string, r: string)
    ensures Machines(c, l + "/room/" + m, r) == Machines(c, l, m + "/room/" + r)
  {
    var path := LocationPath + l + RoomPath + m + RoomPath + r;
    assert LocationPath + (l + "/room/" + m) + RoomPath + r == path;
    assert LocationPath + l + RoomPath + (m + "/room/" + r) == path;
    assert Machines(c, l + "/room/" + m, r) == Origin(c) + (LocationPath + (l + "/room/" + m) + RoomPath + r) + MachinesPath;
    assert Machines(c, l, m + "/room/" + r) == Origin(c) + (LocationPath + l + RoomPath + (m + "/room/" + r)) + MachinesPath;
  }

  /** `proto://host`. */
  function HostPart(proto: string, host: string): string {
    proto + "://" + host
  }

  /** `:port`. */
  function PortPart(port: nat): string {
    ":" + Decimal(port)
  }

  /** `/api/v1/location/{location}/room/{room}/machines`. */
  function MachinesPathPart(locationId: string, roomId: string): string {
    LocationPath + locationId + RoomPath + roomId + MachinesPath
  }

  /** The two machines-URL builders agree except for the port: `url::machines` is host
      part, `:port`, path; `build_url` is the same host part (with the compiled-in
      protocol and host) followed directly by the same path. */
  lemma BuildUrlIsMachinesWithoutPort(env: BuildEnv, e: RoomMachinesEndpoint, c: ApiConfig)
    requires c.proto == env.apiProto && c.host == env.apiHost
    ensures Machines(c, e.locationId, e.roomId)
      == HostPart(c.proto, c.host) + PortPart(c.port) + MachinesPathPart(e.locationId, e.roomId)
    ensures BuildUrl(env, e) == HostPart(c.proto, c.host) + MachinesPathPart(e.locationId, e.roomId)
  {
  }
}

=== FILE: utf8.dfy ===
/** UTF-8 encoding of Rust strings (`str::as_bytes`), with a strict decoder as its partner. */
module Utf8 {
  import opened Wrappers
  import opened Bytes

  /** A Unicode scalar value: what a Rust `char` (and a Dafny `char`) holds. */
  predicate IsScalar(cp: int) {
    (0 <= cp < 0xD800) || (0xE000 <= cp < 0x11_0000)
  }

  predicate IsContinuation(b: Byte) {
    0x80 <= b < 0xC0
  }

  /** The one to four bytes that encode one character. */
  function EncodeChar(c: char): (r: seq<Byte>)
    ensures 1 <= |r| <= 4
    ensures |r| == 1 <==> (c as int) < 0x80
    ensures forall i :: 1 <= i < |r| ==> IsContinuation(r[i])
  {
    var cp := c as int;
    if cp < 0x80 then [cp]
    else if cp < 0x800 then [0xC0 + cp / 64, 0x80 + cp % 64]
    else if cp < 0x1_0000 then [0xE0 + cp / 4096, 0x80 + (cp / 64) % 64, 0x80 + cp % 64]
    else [0xF0 + cp / 262144, 0x80 + (cp / 4096) % 64, 0x80 + (cp / 64) % 64, 0x80 + cp % 64]
  }

  /** The bytes of a string, character by character. */
  function Encode(s: string): (r: seq<Byte>)
    ensures |s| <= |r| <= 4 * |s|
  {
    if |s| == 0 then [] else EncodeChar(s[0]) + Encode(s[1..])
  }

  /** The value carried by the leading byte and continuation bytes of a character's encoding. */
  function Payload(bs: seq<int>): int
    requires 1 <= |bs| <= 4
  {
    if |bs| == 1 then bs[0]
    else if |bs| == 2 then (bs[0] - 0xC0) * 64 + (bs[1] - 0x80)
    else if |bs| == 3 then ((bs[0] - 0xE0) * 64 + (bs[1] - 0x80)) * 64 + (bs[2] - 0x80)
    else (((bs[0] - 0xF0) * 64 + (bs[1] - 0x80)) * 64 + (bs[2] - 0x80)) * 64 + (bs[3] - 0x80)
  }

  /** Decodes the character at the front of `bs`, with the number of bytes it used;
      `None` for a malformed, overlong or surrogate sequence. */
  function DecodeChar(bs: seq<Byte>): (r: Option<(char, nat)>)
    ensures r.Some? ==> 1 <= r.value.1 <= |bs|
  {
    if |bs| == 0 then None
    else
      var b0 := bs[0];
      if b0 < 0x80 then Some((b0 as char, 1))
      else if 0xC2 <= b0 < 0xE0 && 2 <= |bs| && IsContinuation(bs[1]) then
        var cp := Payload(bs[..2]);
        if 0x80 <= cp && IsScalar(cp) then Some((cp as char, 2)) else None
      else if 0xE0 <= b0 < 0xF0 && 3 <= |bs| && IsContinuation(bs[1]) && IsContinuation(bs[2]) then
        var cp := Payload(bs[..3]);
        if 0x800 <= cp && IsScalar(cp) then Some((cp as char, 3)) else None
      else if 0xF0 <= b0 < 0xF5 && 4 <= |bs| && IsContinuation(bs[1]) && IsContinuation(bs[2])
                && IsContinuation(bs[3]) then
        var cp := Payload(bs[..4]);
        if 0x1_0000 <= cp && IsScalar(cp) then Some((cp as char, 4)) else None
      else None
  }

  /** Decodes a whole byte string; `None` unless it is well-formed UTF-8. */
  function Decode(bs: seq<Byte>): (r: Option<string>)
    decreases |bs|
  {
    if |bs| == 0 then Some([])
    else match DecodeChar(bs)
      case None => None
      case Some((c, n)) =>
        match Decode(bs[n..])
        case None => None
        case Some(rest) => Some([c] + rest)
  }

  /** `q` and `r` are the quotient and remainder of `x` by 64. */
  lemma DivMod64(x: int, q: int, r: int)
    requires 0 <= r < 64 && x == q * 64 + r
    ensures x / 64 == q && x % 64 == r
  {
  }

  /** Dividing by 4096 or by 262144 is dividing by 64 two or three times. */
  lemma NestedDiv(x: nat)
    ensures x / 4096 == (x / 64) / 64
    ensures x / 262144 == (x / 4096) / 64
  {
  }

  /** The payload of a character's encoding is its code point. */
  lemma PayloadEncodeChar(c: char)
    ensures Payload(EncodeChar(c)) == c as int
  {
    var cp := c as int;
    NestedDiv(cp);
    if cp >= 0x800 {
      assert cp / 64 == (cp / 4096) * 64 + (cp / 64) % 64;
      if cp >= 0x1_0000 {
        assert cp / 4096 == (cp / 262144) * 64 + (cp / 4096) % 64;
      }
    }
  }

  /** The decoder reads back exactly the character the encoder wrote, whatever follows it. */
  lemma DecodeEncodeChar(c: char, rest: seq<Byte>)
    ensures DecodeChar(EncodeChar(c) + rest) == Some((c, |EncodeChar(c)|))
  {
    var e := EncodeChar(c);
    var bs := e + rest;
    PayloadEncodeChar(c);
    assert bs[..|e|] == e;
    assert forall i :: 0 <= i < |e| ==> bs[i] == e[i];
  }

  /** Whatever the decoder accepts at the front of `bs` is exactly the encoding of the
      character it returns: the decoder admits one spelling per character. */
  lemma EncodeDecodeChar(bs: seq<Byte>)
    requires DecodeChar(bs).Some?
    ensures EncodeChar(DecodeChar(bs).value.0) == bs[..DecodeChar(bs).value.1]
  {
    var (c, n) := DecodeChar(bs).value;
    var cp := c as int;
    if n == 2 {
      var x: int, y: int := bs[0] - 0xC0, bs[1] - 0x80;
      DivMod64(cp, x, y);
    } else if n == 3 {
      var x: int, y: int, z: int := bs[0] - 0xE0, bs[1] - 0x80, bs[2] - 0x80;
      DivMod64(cp, x * 64 + y, z);
      DivMod64(cp / 64, x, y);
      assert cp / 4096 == (cp / 64) / 64;
    } else if n == 4 {
      var w: int, x: int, y: int, z: int := bs[0] - 0xF0, bs[1] - 0x80, bs[2] - 0x80, bs[3] - 0x80;
      DivMod64(cp, (w * 64 + x) * 64 + y, z);
      DivMod64(cp / 64, w * 64 + x, y);
      DivMod64(cp / 4096, w, x);
      assert cp / 4096 == (cp / 64) / 64;
      assert cp / 262144 == (cp / 4096) / 64;
    }
  }

  /** Decoding the bytes of a string gives the string back. */
  lemma {:induction false} DecodeEncode(s: string)
    ensures Decode(Encode(s)) == Some(s)
  {
    if |s| > 0 {
      var e := EncodeChar(s[0]);
      DecodeEncodeChar(s[0], Encode(s[1..]));
      assert (e + Encode(s[1..]))[|e|..] == Encode(s[1..]);
      DecodeEncode(s[1..]);
      assert [s[0]] + s[1..] == s;
    }
  }

  /** One step of a successful decode: the first character `c`, spelled by the first `n`
      bytes, then the decode of the rest. */
  lemma DecodeStep(bs: seq<Byte>) returns (c: char, n: nat)
    requires |bs| > 0 && Decode(bs).Some?
    ensures 1 <= n <= |bs|
    ensures EncodeChar(c) == bs[..n]
    ensures Decode(bs[n..]).Some?
    ensures Decode(bs).value == [c] + Decode(bs[n..]).value
  {
    c, n := DecodeChar(bs).value.0, DecodeChar(bs).value.1;
    EncodeDecodeChar(bs);
  }

  /** Every byte string the decoder accepts is the encoding of what it decodes to. */
  lemma {:induction false} EncodeDecode(bs: seq<Byte>)
    requires Decode(bs).Some?
    ensures Encode(Decode(bs).value) == bs
    decreases |bs|
  {
    if |bs| > 0 {
      var c, n := DecodeStep(bs);
      EncodeDecode(bs[n..]);
      var s, rest := Decode(bs).value, Decode(bs[n..]).value;
      assert s[0] == c && s[1..] == rest;
      assert Encode(s) == EncodeChar(c) + Encode(rest);
      assert bs == bs[..n] + bs[n..];
    }
  }

  /** Two strings have the same bytes exactly when they are the same string: a
      consequence of decoding undoing encoding. */
  lemma EncodeInjective(s: string, t: string)
    ensures Encode(s) == Encode(t) <==> s == t
  {
    if Encode(s) == Encode(t) {
      DecodeEncode(s);
      DecodeEncode(t);
    }
  }
}

=== FILE: uuid.dfy ===
/** UUIDs as their sixteen raw bytes (`Uuid::as_bytes`) and their `Display` text: the
    lower-case hyphenated form `xxxxxxxx-xxxx-xxxx-xxxx-xxxxxxxxxxxx`. */
module Uuid {
  import opened Wrappers
  import opened Bytes

  type Uuid = s: seq<Byte> | |s| == 16 witness seq(16, _ => 0)

  type Nibble = x: int | 0 <= x < 16

  predicate IsLowerHexDigit(c: char) {
    ('0' <= c <= '9') || ('a' <= c <= 'f')
  }

  function HexDigit(v: Nibble): (c: char)
    ensures IsLowerHexDigit(c)
  {
    if v < 10 then ('0' as int + v) as char else ('a' as int + (v - 10)) as char
  }

  function HexValue(c: char): (r: Option<Nibble>)
    ensures r.Some? <==> IsLowerHexDigit(c)
  {
    if '0' <= c <= '9' then Some(c as int - '0' as int)
    else if 'a' <= c <= 'f' then Some(c as int - 'a' as int + 10)
    else None
  }

  /** Two lower-case hex digits per byte, high nibble first. */
  function Hex(bs: seq<Byte>): (r: string)
    ensures |r| == 2 * |bs|
    ensures forall i :: 0 <= i < |r| ==> IsLowerHexDigit(r[i])
  {
    if |bs| == 0 then [] else [HexDigit(bs[0] / 16), HexDigit(bs[0] % 16)] + Hex(bs[1..])
  }

  /** The bytes spelled by a string of lower-case hex digit pairs. */
  function ParseHex(s: string): (r: Option<seq<Byte>>)
    ensures r.Some? ==> 2 * |r.value| == |s|
  {
    if |s| == 0 then Some([])
    else if |s| == 1 then None
    else match (HexValue(s[0]), HexValue(s[1]), ParseHex(s[2..]))
      case (Some(hi), Some(lo), Some(rest)) => Some([(hi as int) * 16 + lo] + rest)
      case _ => None
  }

  lemma {:induction false} ParseHexHex(bs: seq<Byte>)
    ensures ParseHex(Hex(bs)) == Some(bs)
  {
    if |bs| > 0 {
      var h := Hex(bs);
      assert h[2..] == Hex(bs[1..]);
      ParseHexHex(bs[1..]);
      assert [bs[0]] + bs[1..] == bs;
    }
  }

  /** `Uuid::to_string`: 8-4-4-4-12 lower-case hex digits separated by hyphens. */
  function ToString(u: Uuid): (r: string)
    ensures |r| == 36
    ensures r[8] == '-' && r[13] == '-' && r[18] == '-' && r[23] == '-'
    ensures forall i :: 0 <= i < 36 && i != 8 && i != 13 && i != 18 && i != 23 ==> IsLowerHexDigit(r[i])
  {
    Hex(u[..4]) + "-" + Hex(u[4..6]) + "-" + Hex(u[6..8]) + "-" + Hex(u[8..10]) + "-" + Hex(u[10..])
  }

  /** Reads the lower-case hyphenated form back; `None` for any other text. */
  function Parse(s: string): (r: Option<Uuid>)
  {
    if |s| != 36 || s[8] != '-' || s[13] != '-' || s[18] != '-' || s[23] != '-' then None
    else match (ParseHex(s[..8]), ParseHex(s[9..13]), ParseHex(s[14..18]), ParseHex(s[19..23]), ParseHex(s[24..]))
      case (Some(a), Some(b), Some(c), Some(d), Some(e)) => Some(a + b + c + d + e)
      case _ => None
  }

  /** The text of a UUID reads back as that UUID. */
  lemma ParseToString(u: Uuid)
    ensures Parse(ToString(u)) == Some(u)
  {
    var s := ToString(u);
    assert s[..8] == Hex(u[..4]);
    assert s[9..13] == Hex(u[4..6]);
    assert s[14..18] == Hex(u[6..8]);
    assert s[19..23] == Hex(u[8..10]);
    assert s[24..] == Hex(u[10..]);
    ParseHexHex(u[..4]);
    ParseHexHex(u[4..6]);
    ParseHexHex(u[6..8]);
    ParseHexHex(u[8..10]);
    ParseHexHex(u[10..]);
    assert u[..4] + u[4..6] + u[6..8] + u[8..10] + u[10..] == u;
  }

  /** Different UUIDs have different texts. */
  lemma ToStringInjective(u: Uuid, v: Uuid)
    requires ToString(u) == ToString(v)
    ensures u == v
  {
    ParseToString(u);
    ParseToString(v);
  }
}

=== FILE: wrappers.dfy ===
/** Failure-carrying wrappers shared by every module: Rust's `Option` and `Result`. */
module Wrappers {

  /** Rust's `Option<T>`. */
  datatype Option<+T> = None | Some(value: T)

  /** Rust's `Result<T, E>`. */
  datatype Result<+T, +E> = Ok(value: T) | Err(error: E)
}
